=== FILE: README.md ===
# fluidspaces, modelled in Dafny

fluidspaces is a workspace switcher for the i3 window manager. Workspaces
are named `<number>:<title>`: the user works with titles, and the program
keeps the numbers in step with the order of the workspaces.

A daemon reads a request token from a socket: `go_to`, `send_to`,
`bring_to` or `toggle`. It then does the following:

1. It picks a target workspace. For `toggle` this is the second workspace
   on the focused output. Every other token asks the user through a
   dmenu-style picker, which lists the titles.
2. It sends i3 the action commands for that target.
3. It promotes the focused workspace to number 0.
4. It renumbers every workspace 1..n in list order (the "fixup").

This project models that core as pure functions over immutable data. The
modules are:

- `Wrappers`: `Option` and `Result`.
- `Text`: `join`, a splitter that undoes it, and `str::trim`.
- `Parser`: the nom combinators `number`, `colon` and `the_rest`, and the
  whitespace eater `sp` that `ws!` uses.
- `Codec`: `title_from_name`, and the `<n>:<title>` form the program
  writes.
- `Workspaces`: the workspace queries and the picker's choice list.
- `Commands`: the i3 command strings, and how a batch is joined.
- `Reconcile`: `fixup_wps`, plus a model of how i3 carries out a rename, so
  the effect of a fixup can be stated.
- `Connection`: the `I3ConnectionExt` methods.
- `Dispatch`: the decision logic of `handle_stream`.

The model treats i3 and the user as inputs:

- Every query to i3 (`get_workspaces`) is a workspace list passed in.
- Every command is returned as a string, or as a `Command` value, instead of
  being sent.
- The picker is a function from the text it is shown to the text it
  returns.
- The lists i3 reports after the action batch and after the promotion batch
  are two more parameters.

Several helpers are called by the binary but not defined in the library
source. Each is modelled by the plainest behaviour its name and its call
site imply:

- `get_second_wp_with_output` is `Workspaces.SecondOnOutput`: the workspace
  at position 1 among those on the output, in list order.
- `get_wp_with_focus` is `Workspaces.Focused`: the first focused workspace.
- `next_unused_number` is `Workspaces.NextUnusedNumber`: the length of the
  list plus one.
- `Workspace::promote` is `Commands.Promote`: the same rename that
  `promote_wp` sends.
- The `fixup_wps` of `Workspaces` returns the renames that the connection
  method of the same name sends.
- The free functions `go_to` and `send_to` return one command for the
  target as given, which is `Commands.Focus` or `Commands.MoveTo`.

Where the code and its documentation differ, the model follows the code:

- A name that starts with digits and goes on with letters, such as `7foo`,
  decodes to `foo`.
- Whitespace after the title is kept.
- Commands carry names unquoted, as `workspace T`.
  `Commands.RenameAmbiguous` shows what that costs.
- Every action runs the promotion, including `send_to`.
- A token other than `toggle` opens the picker before the token is checked.
  So an empty pick ends the request quietly, whatever the token. An unknown
  token fails only once something has been picked.

## Model

| member | source | states |
|---|---|---|
| Parser.NumberSpec | src/parser.rs:21-23 | `number` never fails. It splits its input, in order, into the longest leading run of digits and a rest that does not start with a digit. |
| Parser.NumberSplitsAt | src/parser.rs:23 | Conversely, every split into digits and a rest that does not start with a digit is the split `number` makes. |
| Parser.NumberExamples | src/parser.rs:85-98 | The eight unit cases of `number`, including an empty match before a letter or a colon. |
| Parser.ColonSpec | src/parser.rs:25-26 | `colon` succeeds exactly when the input starts with ':' and then consumes that one character. On failure it reports the whole input. |
| Parser.ColonExamples | src/parser.rs:100-110 | The five unit cases of `colon`, including the tag errors for `7:` and `a:`. |
| Parser.TheRestExamples | src/parser.rs:112-122 | The five unit cases of `the_rest`: it takes everything and leaves nothing. |
| Parser.SkipSpaceSpec | src/lib.rs:194-196 | The separator eater of `ws!` drops exactly a leading run of space, tab, CR and LF. What it leaves is a suffix that starts with none of them. |
| Parser.SkipSpaceIdempotent | src/lib.rs:194-196 | Eating separators twice is the same as eating them once. |
| Codec.NatToStringSpec | src/lib.rs:175-183 | The decimal form of a number is a non-empty digit run with no leading zero. Reading it back as `usize_parser` does gives the number. |
| Codec.TitleSpec | src/lib.rs:192-203 | The decoded title is a suffix of the name and never starts with a separator. |
| Codec.TitleIsWholeName | src/lib.rs:192-203 | A name decodes to itself exactly when it is empty or starts with neither a separator, a digit nor ':'. |
| Codec.TitleStable | src/lib.rs:192-203 | Decoding a title again changes nothing exactly when the title is empty or starts with neither a digit nor ':'. |
| Codec.TitleOfCanonical | src/lib.rs:86-91 | The name the fixup writes, `<n>:<title>`, decodes to the title less its leading separators. |
| Codec.TitleRoundTrip | src/lib.rs:86-91 | Renaming a workspace to `<n>:<its title>` keeps its title. |
| Codec.CanonicalInjective | src/lib.rs:86-91 | Two names of the form `<n>:<title>` are equal only when their numbers and titles are equal. |
| Codec.DigitsColonInjective | src/lib.rs:192-196 | A digit run and a colon in front of a title fix both the run and the title. |
| Codec.TitleBasicExample | src/parser.rs:138-140 | `7:foo` and `77:foo` decode to `foo`. |
| Codec.TitleWithoutNumberExample | src/parser.rs:141-142 | `:foo` and `foo` decode to `foo`. |
| Codec.TitleSpaceAfterColonExample | src/parser.rs:144 | `7: foo` decodes to `foo`. |
| Codec.TitleSpaceBeforeColonExample | src/parser.rs:145 | `7 :foo` decodes to `foo`. |
| Codec.TitleSpaceAroundColonExample | src/parser.rs:146 | `7 : foo` decodes to `foo`. |
| Codec.TitleWithSpaceExample | src/parser.rs:148 | `7:foo bar` decodes to `foo bar`. |
| Codec.TitlePunctuationExample | src/parser.rs:149-150 | Hyphens and apostrophes stay in the title. |
| Codec.TitleWithDigitsInsideExample | src/parser.rs:152-153 | Digits inside or after the title stay. |
| Codec.TitleWithDigitsBeforeExample | src/parser.rs:154-155 | Digits at the start of the title, behind the colon, stay. |
| Codec.TitleOfDigitsExample | src/parser.rs:157-158 | A title made of digits survives behind a colon, with or without a number. |
| Workspaces.FindFrom | src/lib.rs:150-156 | Iterator `find` gives the first element that satisfies the predicate. It gives none exactly when no element does. |
| Workspaces.WithName | src/lib.rs:150-152 | `get_wp_with_name` gives the first workspace with exactly that name. It gives none exactly when no workspace has it. |
| Workspaces.WithTitle | src/lib.rs:154-156 | `get_wp_with_title` gives the first workspace whose decoded title is equal to the argument. It gives none exactly when there is no such workspace. |
| Workspaces.AsI32 | src/lib.rs:159 | `number as i32` agrees with the number modulo 2^32 and is the number itself below 2^31. |
| Workspaces.WithNumber | src/lib.rs:158-160 | `get_wp_with_number` gives the first workspace whose `num` is equal to the number truncated to 32 bits. |
| Workspaces.WithNumberWraps | src/lib.rs:158-160 | Because of the cast, numbers 2^32 apart find the same workspace, and 2^31 becomes `i32::MIN`. |
| Workspaces.Focused | src/bin/fluidspaces.rs:97 | Gives the first focused workspace, or none exactly when no workspace is focused. |
| Workspaces.SecondOnOutputSpec | src/bin/fluidspaces.rs:104-112 | The second workspace on an output exists exactly when the output has at least two. It is on that output and has exactly one of them before it. |
| Workspaces.NextUnusedNumber | src/bin/fluidspaces.rs:157 | The new number is positive, and no workspace carries it on a list numbered 1..n. |
| Workspaces.NextUnusedMayBeTaken | src/bin/fluidspaces.rs:151-158 | On a list that is not numbered 1..n, that number may already be taken. |
| Workspaces.UsizeKey | src/lib.rs:140 | `num as usize` agrees with `num` modulo 2^64. It lies in the top half of the range exactly when `num` is negative. |
| Workspaces.InsertSpec | src/lib.rs:142 | Inserting into a sorted list keeps it sorted and adds exactly the new choice. |
| Workspaces.SortByKeySpec | src/lib.rs:142 | The sort returns a permutation of its input that is sorted by key. |
| Workspaces.SortedChoices | src/lib.rs:138-142 | Workspaces with a negative number are listed after all the others. |
| Workspaces.ChoicesStrSpec | src/lib.rs:137-148 | For a non-empty list, the picker text lists every workspace once, by title, in non-decreasing `num as usize` order. When no title holds a line break, cutting the text at line breaks gives exactly those titles. |
| Text.JoinSplitRoundTrip | src/lib.rs:147 | Joining parts with a one-character separator that no part contains can be undone by cutting at that character. |
| Text.JoinAppend | src/lib.rs:33-36 | Joining two non-empty lists one after the other is the same as joining each and putting one separator between them. |
| Text.TrimSpec | src/bin/fluidspaces.rs:142 | `trim` keeps a contiguous middle part. What it drops on either side is white space, and what it keeps neither starts nor ends with white space. |
| Text.TrimEmptyIff | src/bin/fluidspaces.rs:142-149 | A pick trims to nothing exactly when it is all white space. |
| Text.TrimIdempotent | src/bin/fluidspaces.rs:142 | Trimming twice is the same as trimming once. |
| Commands.RenderInjective | src/lib.rs:104-118 | The command string tells the kind of command and its target. For a rename it tells the new name once the old one is known. |
| Commands.RenameAmbiguous | src/lib.rs:86-91 | Without quoting, `rename workspace A to B` cannot be read back when a name contains ` to `. |
| Commands.BatchShape | src/lib.rs:33-36 | A batch is empty exactly when it has no commands, and a batch of one command is that command's string. |
| Commands.BatchAppend | src/lib.rs:33-36 | Batching two lists at once sends the first list's batch, "; ", and then the second's. |
| Commands.PromoteCommand | src/lib.rs:38-41 | The promotion renames the workspace from its name to a name that i3 reads as number 0 and that decodes back to the title, less leading separators. |
| Reconcile.FixupPlan | src/lib.rs:73-93 | The fixup renames each position at most once, in increasing order. It renames exactly the positions whose number is not position + 1, and so every negative number. |
| Reconcile.PlanFromSorted | src/lib.rs:73-93 | The renamed positions are strictly increasing. |
| Reconcile.PlanFromMembers | src/lib.rs:73-93 | A position is renamed exactly when its old number, with a negative number counted as 0, differs from position + 1. |
| Reconcile.PlanFromLength | src/lib.rs:73-93 | There are no more renames than workspaces. |
| Reconcile.FixupFromFollowsPlan | src/lib.rs:73-93 | Command k of the loop renames the k-th planned workspace. |
| Reconcile.FixupFollowsPlan | src/lib.rs:73-93 | Command k renames the k-th planned workspace from its name to `<position+1>:<title>`. |
| Reconcile.FixupEmptyIffNormalized | src/lib.rs:64-102 | The fixup issues no command exactly when the list is already numbered 1..n in order. |
| Codec.NumOfCanonical | src/lib.rs:86-91 | i3 reads back the number the fixup writes into `<n>:<title>`. |
| Reconcile.PromoteSpec | src/lib.rs:38-41 | The promotion renames the workspace to number 0 and keeps its title. |
| Reconcile.RenamedKeepsTitles | src/lib.rs:86-91 | Renumbering keeps every title. |
| Reconcile.RenameStep | src/lib.rs:85-91 | With distinct titles, the rename for a position finds its old name there and nowhere before. No one else holds its new name, so it renumbers exactly that position. |
| Reconcile.SkipStep | src/lib.rs:85 | A position that is already right is left alone. |
| Reconcile.SimulationStep | src/lib.rs:73-93 | With distinct titles, one position of the loop carries the renumbering one position further. |
| Reconcile.FixupSimulation | src/lib.rs:73-100 | With distinct titles, when i3 runs the fixup batch, the result is the list with every planned position renumbered. |
| Reconcile.AfterFixupRenumbers | src/lib.rs:64-102 | With distinct titles, the list after the fixup is the renumbered list. |
| Reconcile.RenamedAllSpec | src/lib.rs:73-93 | The renumbered list is numbered 1..n. It keeps titles, outputs and focus, and leaves correctly numbered workspaces untouched. |
| Reconcile.FixupIdempotent | src/lib.rs:64-102 | With distinct titles and fewer than 2^31 workspaces, one fixup numbers the list 1..n and keeps titles, outputs, focus and correct workspaces. A second fixup then issues nothing. |
| Reconcile.LookAlikesFixup | src/lib.rs:73-93 | For an unnumbered workspace and a workspace `1:<t>` with the same title, the fixup issues `t -> 1:t` and `1:t -> 2:t`. |
| Reconcile.LookAlikesAfterFixup | src/lib.rs:64-102 | i3 refuses the first of those renames and carries out the second. |
| Reconcile.FixupNeedsDistinctTitles | src/lib.rs:64-102 | With two workspaces titled alike, one fixup can leave the list unnumbered, so a second fixup still has work to do. |
| Connection.WpWithNameExists | src/lib.rs:57-62 | True exactly when some workspace has the name. |
| Connection.NameFromTitle | src/lib.rs:46-55 | Gives the name of the first workspace with the title, which decodes back to the title. It fails, with the message `No workspace with title "T" found`, exactly when there is none. |
| Connection.ResolveTargetSpec | src/lib.rs:104-118 | An existing name addresses its own workspace. Any other name is cut down to its title, a suffix that starts with no separator and equals the name exactly when the name has no number, colon or separator in front. |
| Connection.BringToSpec | src/lib.rs:120-125 | Bringing is two commands that address one target, sent as `move container to workspace T; workspace T`. |
| Connection.PromoteWpSpec | src/lib.rs:38-44 | The first batch renames to `0:<title>`, which i3 numbers 0 and which keeps the title. The second batch is empty exactly when the list is already numbered 1..n. |
| Dispatch.ToggleTargetSpec | src/bin/fluidspaces.rs:95-113 | `toggle` fails with no focused workspace exactly when none is focused. It fails with no second workspace exactly when the focused output has fewer than two. Otherwise it names the second workspace on that output. |
| Dispatch.PickedTargetSpec | src/bin/fluidspaces.rs:151-158 | A picked title reuses the first workspace with that title. If there is none, it becomes `<|wps|+1>:<title>`, which decodes back to the title and which i3 numbers |wps|+1. |
| Dispatch.ActionCommands | src/bin/fluidspaces.rs:168-174 | Every action command addresses the target. Only `send_to` and `bring_to` move, all but `send_to` end on the target, and only `bring_to` takes two commands. |
| Dispatch.PromoteCommands | src/bin/fluidspaces.rs:186-190 | At most one rename, and none exactly when nothing is focused. It renames the focused workspace to number 0 and keeps its title. |
| Dispatch.HandleRequest | src/bin/fluidspaces.rs:82-202 | A request that runs had a known token and sends one or two action commands. It then sends the promotion for the list after the action, then the fixup of the list after the promotion. |
| Dispatch.ToggleRequest | src/bin/fluidspaces.rs:93-113 | `toggle` never consults the picker and is never cancelled. It fails as its target lookup fails, or focuses that target. |
| Dispatch.CancelledIff | src/bin/fluidspaces.rs:140-149 | Any other token is cancelled, with nothing sent, exactly when the pick is all white space. |
| Dispatch.UnknownTokenFails | src/bin/fluidspaces.rs:175-181 | Once something is picked, an unknown token fails with an error that names it. |
| Dispatch.UnexpectedOnlyForUnknown | src/bin/fluidspaces.rs:175-181 | A request that fails with the unexpected-message error had an unknown token, and the error names that token. |
| Dispatch.PickedRequest | src/bin/fluidspaces.rs:151-174 | A picked request acts, with its token's commands, on a target that decodes to the picked title. |
| Dispatch.RanSettles | src/bin/fluidspaces.rs:195-199 | With distinct titles after the promotion, the fixup batch leaves the workspaces numbered 1..n. |
| Dispatch.ToggleExample | src/bin/fluidspaces.rs:95-199 | For any two titles that decode to themselves, toggling from `1:a` to `2:b` on one output focuses `2:b`, promotes it to `0:b`, and the fixup renames `0:b` to `1:b` and `1:a` to `2:a`. |
| Dispatch.TogglePromoteExample | src/bin/fluidspaces.rs:186-190 | After the toggle, the promotion renames the focused `2:b` to `0:b`. |
| Dispatch.ToggleFixupExample | src/lib.rs:73-93 | On `[0:b, 1:a]` the fixup renames both, in list order, to `1:b` and `2:a`. |
| Dispatch.ToggleAloneExample | src/bin/fluidspaces.rs:104-112 | Toggling with one workspace on the focused output fails. |

## Left out

- I/O is not modelled. This covers the Unix socket, the event loop and
  `main`, spawning dmenu, the i3 IPC transport, `println!`/`eprintln!` and
  the `?` on every i3 call. The i3 calls are parameters or return values
  here, and their transport errors are not modelled.
- src/bin/fluidspaces-msg.rs is not part of this model. It is a client that
  only writes the token to the socket.
- `String::from_utf8_lossy` on the picker's output is not modelled. The
  picker returns text directly.
- Codec.TitleFromName: nom 3's streaming behaviour is not modelled. On some
  short inputs the real parser reports `Incomplete` and `unwrap` panics, and
  a digit run too long for `usize` makes the number parser fail. The model
  decodes with complete-input semantics and any number of digits. On a
  name made only of digits, such as `7`, `opt!(ws!(tag!(":")))` meets empty
  input, nom 3 answers `Incomplete` and `unwrap` panics
  (src/lib.rs:194-195, 202); the model returns the empty title instead.
  i3's default names `1` to `10` reach that panic through `wp.title()` in
  `choices_str` (src/lib.rs:140).
- Workspaces.SortByKeySpec: does not fix the order of choices with equal
  keys, because `sort_unstable_by` leaves that order unspecified. The model
  sorts stably, but the contract promises only a sorted permutation.
- Codec.NumOfName: reads i3's number from a name in a simplified way.
  It takes the leading decimal digits, or gives -1 when there are none or
  the value does not fit in 31 bits. i3's own parser is not part of this
  model, and it accepts more forms.
- Reconcile.ApplyRename: is a model of i3, not of fluidspaces. A rename
  whose new name another workspace already holds is refused. i3 compares
  names ignoring ASCII case (`strcasecmp`), while the model compares them
  exactly, so i3 also refuses `foo` to `1:foo` when `1:Foo` exists and the
  model does not. i3's
  further rules are not modelled: focus changes, empty workspaces vanishing,
  and i3's own ordering of workspaces. Renames are applied as `Command`
  values, as if i3 read each unquoted command back exactly. A name that
  contains ` to ` (see `Commands.RenameAmbiguous`) or `;` (which splits the
  `"; "`-joined batch) is outside the simulation behind
  Reconcile.FixupSimulation, Reconcile.FixupIdempotent and
  Dispatch.RanSettles.
- Reconcile.FixupIdempotent: requires distinct titles and fewer than 2^31
  workspaces. Reconcile.FixupNeedsDistinctTitles shows that the first
  requirement is needed. Under real i3, which matches names ignoring ASCII
  case, the titles must be distinct up to ASCII case: with `foo` and `1:Foo`
  the rename of `foo` to `1:foo` is refused and `foo` stays unnumbered.
- Dispatch.HandleRequest: the error texts raised inside `handle_stream` are
  the constructors of `Dispatch.Error`, not strings. The error message of
  `name_from_title` is modelled as text.

=== FILE: codec.dfy ===
/** The workspace-name codec of src/lib.rs. A name such as `7:foo`, `7 : foo`,
    `:foo` or `foo` is read as an optional number, an optional colon and the
    rest, whitespace tolerated around each; the rest is the title. Names are
    written back as `<number>:<title>`, the format every rename uses. */
module Codec {
  import opened Wrappers
  import opened Text
  import opened Parser

  function DigitChar(d: nat): char
    requires d < 10
  {
    ('0' as int + d) as char
  }

  /** Rust's `{}` formatting of an unsigned integer: decimal, no leading zero. */
  function NatToString(n: nat): string
  {
    if n < 10 then [DigitChar(n)] else NatToString(n / 10) + [DigitChar(n % 10)]
  }

  /** The value of a run of decimal digits. */
  function DigitsValue(s: string): nat
    requires AllDigits(s)
  {
    if s == [] then 0 else DigitsValue(s[..|s| - 1]) * 10 + (s[|s| - 1] as int - '0' as int)
  }

  /** A formatted number is a non-empty run of digits without a leading zero,
      and reading it back gives the number. */
  lemma {:induction false} NatToStringSpec(n: nat)
    ensures NatToString(n) != [] && AllDigits(NatToString(n))
    ensures |NatToString(n)| == 1 || NatToString(n)[0] != '0'
    ensures DigitsValue(NatToString(n)) == n
  {
    if n >= 10 {
      NatToStringSpec(n / 10);
      var s := NatToString(n);
      assert s[..|s| - 1] == NatToString(n / 10);
    }
  }

  /** `opt!(ws!(usize_parser))`: whitespace, a run of at least one digit and
      whitespace again; when there is no digit the input is left as it was. */
  function SkipNumber(s: string): string
  {
    var n := Number(SkipSpace(s));
    if n.matched == [] then s else SkipSpace(n.rest)
  }

  /** `opt!(ws!(tag!(":")))`: whitespace, one colon and whitespace again; when
      there is no colon the input is left as it was. */
  function SkipColon(s: string): string
  {
    match Colon(SkipSpace(s))
    case Success(c) => SkipSpace(c.rest)
    case Failure(_) => s
  }

  /** `parse_title_from_name` / `title_from_name`: the optional number, the
      optional colon, then `ws!(title_parser)`; `title_parser` is `the_rest`,
      which takes everything, so this last step only drops leading whitespace
      and keeps all the rest, trailing whitespace included. */
  function TitleFromName(name: string): string
  {
    SkipSpace(SkipColon(SkipNumber(name)))
  }

  lemma SkipNumberSuffix(s: string)
    ensures IsSuffix(SkipNumber(s), s)
  {
    var a := SkipSpace(s);
    SkipSpaceSpec(s);
    var n := Number(a);
    if n.matched == [] {
      assert s[|s| - |s|..] == s;
    } else {
      NumberSpec(a);
      RestIsSuffix(n, a);
      SuffixTransitive(n.rest, a, s);
      SkipSpaceSpec(n.rest);
      SuffixTransitive(SkipSpace(n.rest), n.rest, s);
    }
  }

  lemma SkipColonSuffix(s: string)
    ensures IsSuffix(SkipColon(s), s)
  {
    var a := SkipSpace(s);
    SkipSpaceSpec(s);
    ColonSpec(a);
    match Colon(a)
    case Success(c) =>
      RestIsSuffix(c, a);
      SuffixTransitive(c.rest, a, s);
      SkipSpaceSpec(c.rest);
      SuffixTransitive(SkipSpace(c.rest), c.rest, s);
    case Failure(_) =>
      assert s[|s| - |s|..] == s;
  }

  /** The title is what is left of the name once a prefix has been consumed,
      so it is never longer than the name; it never begins with whitespace. */
  lemma TitleSpec(name: string)
    ensures IsSuffix(TitleFromName(name), name)
    ensures TitleFromName(name) == [] || !IsSpace(TitleFromName(name)[0])
  {
    var a := SkipNumber(name);
    var b := SkipColon(a);
    SkipNumberSuffix(name);
    SkipColonSuffix(a);
    SkipSpaceSpec(b);
    SuffixTransitive(b, a, name);
    SuffixTransitive(SkipSpace(b), b, name);
  }

  /** The canonical name `<number>:<title>` (the `{}:{}` formats of src/lib.rs
      and src/bin/fluidspaces.rs). */
  function Canonical(n: nat, title: string): string
  {
    NatToString(n) + ":" + title
  }

  /** i3's reading of a workspace number from a name: its leading decimal
      digits, or -1 when it has none or they do not fit. */
  function NumOfName(name: string): (r: int)
    ensures -1 <= r < 0x8000_0000
    ensures name == [] || !IsDigit(name[0]) ==> r == -1
  {
    NumberSpec(name);
    var d := Number(name).matched;
    if d == [] then -1
    else
      var v := DigitsValue(d);
      if v < 0x8000_0000 then v else -1
  }

  /** i3 reads back the number written in front of the colon. */
  lemma NumOfCanonical(n: nat, title: string)
    requires n < 0x8000_0000
    ensures NumOfName(Canonical(n, title)) == n
  {
    NatToStringSpec(n);
    assert Canonical(n, title) == NatToString(n) + (":" + title);
    NumberSplitsAt(NatToString(n), ":" + title);
  }

  /** Decoding a canonical name gives back its title, less any leading
      whitespace: the number and one colon are consumed, and nothing more, so a
      title may itself start with digits or a colon. */
  lemma TitleOfCanonical(n: nat, title: string)
    ensures TitleFromName(Canonical(n, title)) == SkipSpace(title)
  {
    NatToStringSpec(n);
    DigitsColon(NatToString(n), title);
  }

  /** A title read from a name survives being written into a canonical name
      and read back: renaming by `<number>:<title>` keeps titles. */
  lemma TitleRoundTrip(n: nat, name: string)
    ensures TitleFromName(Canonical(n, TitleFromName(name))) == TitleFromName(name)
  {
    TitleSpec(name);
    TitleOfCanonical(n, TitleFromName(name));
    SkipSpaceStops(TitleFromName(name));
  }

  /** Canonical names are unambiguous: the number and the title can both be
      read back from them. */
  lemma CanonicalInjective(a: nat, t: string, b: nat, u: string)
    requires Canonical(a, t) == Canonical(b, u)
    ensures a == b && t == u
  {
    NatToStringSpec(a);
    NatToStringSpec(b);
    DigitsColonInjective(NatToString(a), t, NatToString(b), u);
  }

  lemma DigitsColonInjective(da: string, t: string, db: string, u: string)
    requires AllDigits(da) && AllDigits(db)
    requires da + ":" + t == db + ":" + u
    ensures da == db && t == u
  {
    assert da + ":" + t == da + (":" + t);
    assert db + ":" + u == db + (":" + u);
    NumberSplitsAt(da, ":" + t);
    NumberSplitsAt(db, ":" + u);
    assert (":" + t)[1..] == t;
    assert (":" + u)[1..] == u;
  }

  /** A name is its own title exactly when it is empty or starts with
      something other than whitespace, a digit or a colon. */
  lemma TitleIsWholeName(name: string)
    ensures TitleFromName(name) == name <==>
              name == [] || (!IsSpace(name[0]) && !IsDigit(name[0]) && name[0] != ':')
  {
    var t := TitleFromName(name);
    TitleSpec(name);
    if name == [] {
    } else if IsSpace(name[0]) {
      assert t != name;
    } else if IsDigit(name[0]) {
      SkipSpaceStops(name);
      var n := Number(name);
      NumberSpec(name);
      assert n.matched != [];
      RestIsSuffix(n, name);
      SkipSpaceSpec(n.rest);
      ShorterAfterNumber(name);
    } else if name[0] == ':' {
      SkipNumberNoDigit(name);
      assert name == ":" + name[1..];
      SkipColonOf(name[1..]);
      SkipSpaceSpec(name[1..]);
      ShorterAfterColon(name);
    } else {
      SkipNumberNoDigit(name);
      SkipSpaceStops(name);
      assert SkipColon(name) == name;
    }
  }

  /** Decoding a title again leaves it alone exactly when it does not itself
      begin with a digit or a colon: `7:2foo` has title `2foo`, whose own
      title is `foo`. */
  lemma TitleStable(name: string)
    ensures var t := TitleFromName(name);
            TitleFromName(t) == t <==> t == [] || (!IsDigit(t[0]) && t[0] != ':')
  {
    TitleSpec(name);
    TitleIsWholeName(TitleFromName(name));
  }

  lemma ShorterAfterNumber(name: string)
    ensures |TitleFromName(name)| <= |SkipNumber(name)|
  {
    var a := SkipNumber(name);
    SkipColonSuffix(a);
    SkipSpaceSpec(SkipColon(a));
  }

  lemma ShorterAfterColon(name: string)
    requires SkipNumber(name) == name
    ensures |TitleFromName(name)| <= |SkipColon(name)|
  {
    SkipSpaceSpec(SkipColon(name));
  }

  /** `<digits>:<rest>`: the number and the colon are dropped, and so is the
      whitespace in front of the rest. */
  lemma DigitsColon(d: string, rest: string)
    requires d != [] && AllDigits(d)
    ensures TitleFromName(d + ":" + rest) == SkipSpace(rest)
  {
    assert d + ":" + rest == d + (":" + rest);
    SkipNumberOfDigits(d, ":" + rest);
    SkipSpaceStops(":" + rest);
    SkipColonOf(rest);
    SkipSpaceIdempotent(rest);
  }

  /** `<digits> :<rest>`: the space between number and colon is eaten too. */
  lemma SpacedColon(d: string, rest: string)
    requires d != [] && AllDigits(d)
    ensures TitleFromName(d + " :" + rest) == SkipSpace(rest)
  {
    var c := ":" + rest;
    var s := " " + c;
    assert d + " :" + rest == d + s;
    SkipNumberOfDigits(d, s);
    assert s[0] == ' ' && s[1..] == c;
    SkipSpaceStops(c);
    assert SkipSpace(s) == c;
    SkipColonOf(rest);
    SkipSpaceIdempotent(rest);
  }

  /** `:<rest>`: no number, one colon. */
  lemma ColonOnly(rest: string)
    ensures TitleFromName(":" + rest) == SkipSpace(rest)
  {
    SkipNumberNoDigit(":" + rest);
    SkipColonOf(rest);
    SkipSpaceIdempotent(rest);
  }

  /** A leading digit run is consumed together with the whitespace after it. */
  lemma SkipNumberOfDigits(d: string, rest: string)
    requires d != [] && AllDigits(d)
    requires rest == [] || !IsDigit(rest[0])
    ensures SkipNumber(d + rest) == SkipSpace(rest)
  {
    var s := d + rest;
    assert s[0] == d[0];
    SkipSpaceStops(s);
    NumberSplitsAt(d, rest);
  }

  /** Without a leading digit (or whitespace before one) nothing is consumed. */
  lemma SkipNumberNoDigit(s: string)
    requires s == [] || (!IsSpace(s[0]) && !IsDigit(s[0]))
    ensures SkipNumber(s) == s
  {
    SkipSpaceStops(s);
    NumberSplitsAt("", s);
    assert "" + s == s;
  }

  /** A leading colon is consumed together with the whitespace after it. */
  lemma SkipColonOf(rest: string)
    ensures SkipColon(":" + rest) == SkipSpace(rest)
  {
    var s := ":" + rest;
    SkipSpaceStops(s);
    assert s[1..] == rest;
  }

  /** A number and a colon in front of a title that starts with no
      whitespace decode to exactly that title. */
  lemma NumberedTitle(d: string, t: string)
    requires d != [] && AllDigits(d)
    requires t == [] || !IsSpace(t[0])
    ensures TitleFromName(d + ":" + t) == t
  {
    DigitsColon(d, t);
    SkipSpaceStops(t);
  }

  /** The decoding cases of the commented-out tests in src/parser.rs: a number
      and a colon in front of a title are dropped, whitespace around them
      too, and the title keeps its own digits, colons, spaces and
      punctuation. */
  lemma TitleBasicExample()
    ensures TitleFromName("7:foo") == "foo"
    ensures TitleFromName("77:foo") == "foo"
  {
    var t := "foo";
    NumberedTitle("7", t);
    NumberedTitle("77", t);
    assert "7" + ":" + t == "7:foo";
    assert "77" + ":" + t == "77:foo";
  }

  lemma TitleWithoutNumberExample()
    ensures TitleFromName(":foo") == "foo"
    ensures TitleFromName("foo") == "foo"
  {
    var t := "foo";
    ColonOnly(t);
    SkipSpaceStops(t);
    assert ":" + t == ":foo";
    TitleIsWholeName(t);
  }

  lemma TitleSpaceAfterColonExample()
    ensures TitleFromName("7: foo") == "foo"
  {
    var t := " foo";
    DigitsColon("7", t);
    assert t[1..] == "foo";
    SkipSpaceStops(t[1..]);
    assert "7" + ":" + t == "7: foo";
  }

  lemma TitleSpaceBeforeColonExample()
    ensures TitleFromName("7 :foo") == "foo"
  {
    var t := "foo";
    SpacedColon("7", t);
    SkipSpaceStops(t);
    assert "7" + " :" + t == "7 :foo";
  }

  lemma TitleSpaceAroundColonExample()
    ensures TitleFromName("7 : foo") == "foo"
  {
    var t := " foo";
    SpacedColon("7", t);
    assert t[1..] == "foo";
    SkipSpaceStops(t[1..]);
    assert "7" + " :" + t == "7 : foo";
  }

  lemma TitleWithSpaceExample()
    ensures TitleFromName("7:foo bar") == "foo bar"
  {
    var t := "foo bar";
    NumberedTitle("7", t);
    assert "7" + ":" + t == "7:foo bar";
  }

  lemma TitlePunctuationExample()
    ensures TitleFromName("7:foo-bar") == "foo-bar"
    ensures TitleFromName("7:foo'bar") == "foo'bar"
  {
    var t, u := "foo-bar", "foo'bar";
    NumberedTitle("7", t);
    NumberedTitle("7", u);
    assert "7" + ":" + t == "7:foo-bar";
    assert "7" + ":" + u == "7:foo'bar";
  }

  lemma TitleWithDigitsInsideExample()
    ensures TitleFromName("7:fo2o") == "fo2o"
    ensures TitleFromName("7:foo2") == "foo2"
  {
    var t, u := "fo2o", "foo2";
    NumberedTitle("7", t);
    NumberedTitle("7", u);
    assert "7" + ":" + t == "7:fo2o";
    assert "7" + ":" + u == "7:foo2";
  }

  lemma TitleWithDigitsBeforeExample()
    ensures TitleFromName("7:2foo") == "2foo"
    ensures TitleFromName("7:2 foo") == "2 foo"
  {
    var t, u := "2foo", "2 foo";
    NumberedTitle("7", t);
    NumberedTitle("7", u);
    assert "7" + ":" + t == "7:2foo";
    assert "7" + ":" + u == "7:2 foo";
  }

  /** A title made of digits survives behind a colon, with or without a
      number in front. */
  lemma TitleOfDigitsExample()
    ensures TitleFromName("7:2") == "2"
    ensures TitleFromName(":2") == "2"
  {
    var t := "2";
    NumberedTitle("7", t);
    assert "7" + ":" + t == "7:2";
    ColonOnly(t);
    SkipSpaceStops(t);
    assert ":" + t == ":2";
  }
}

=== FILE: commands.dfy ===
/** The i3 commands the program issues, and how they are written out: one
    string per command (the `format!`s of src/lib.rs) and one batch per
    `run_cmds` call, the strings joined with "; ". Names are written into
    the commands as they are, without quoting. */
module Commands {
  import opened Text
  import opened Parser
  import opened Codec
  import opened Workspaces

  datatype Command =
    | Focus(target: string)             // `workspace T`
    | MoveTo(target: string)            // `move container to workspace T`
    | Rename(from: string, to: string)  // `rename workspace A to B`

  function Render(c: Command): string
  {
    match c
    case Focus(t) => "workspace " + t
    case MoveTo(t) => "move container to workspace " + t
    case Rename(a, b) => "rename workspace " + a + " to " + b
  }

  /** The written form says which command it is and, for a focus or a move,
      which workspace it names; for a rename it gives the new name once the
      old one is known. */
  lemma RenderInjective(c: Command, d: Command)
    requires Render(c) == Render(d)
    requires c.Rename? && d.Rename? ==> c.from == d.from
    ensures c == d
  {
    var s := Render(c);
    assert s[0] == Render(d)[0];
    match c
    case Focus(t) =>
      assert s[0] == 'w';
      assert t == s[10..];
      assert d.Focus? && d.target == Render(d)[10..];
    case MoveTo(t) =>
      assert s[0] == 'm';
      assert t == s[28..];
      assert d.MoveTo? && d.target == Render(d)[28..];
    case Rename(a, b) =>
      assert s[0] == 'r';
      assert d.Rename?;
      var k := 17 + |a| + 4;
      assert b == s[k..];
      assert d.to == Render(d)[k..];
  }

  /** Without quoting, the old name of a rename cannot be told from the new
      one when a name contains " to ". */
  lemma RenameAmbiguous()
    ensures Render(Rename("a to b", "c")) == Render(Rename("a", "b to c"))
    ensures Rename("a to b", "c") != Rename("a", "b to c")
  {
  }

  function RenderAll(cmds: seq<Command>): (r: seq<string>)
    ensures |r| == |cmds|
    ensures forall i :: 0 <= i < |cmds| ==> r[i] == Render(cmds[i])
  {
    seq(|cmds|, i requires 0 <= i < |cmds| => Render(cmds[i]))
  }

  /** `run_cmds` (declared as `run_commands`): the commands sent to i3 as one
      string, in order, separated by "; ". */
  function Batch(cmds: seq<Command>): string
  {
    Join(RenderAll(cmds), "; ")
  }

  /** A batch is empty exactly when there are no commands, and a
      one-command batch is that command's string. */
  lemma BatchShape(a: seq<Command>)
    ensures Batch(a) == "" <==> a == []
    ensures |a| == 1 ==> Batch(a) == Render(a[0])
  {
    if |a| > 1 {
      assert Batch(a) == Render(a[0]) + "; " + Join(RenderAll(a)[1..], "; ");
    }
  }

  /** Sending two lists of commands as one batch sends the first list's
      batch, a separator, then the second's: batching keeps the order and
      adds nothing else. */
  lemma BatchAppend(a: seq<Command>, b: seq<Command>)
    requires a != [] && b != []
    ensures Batch(a + b) == Batch(a) + "; " + Batch(b)
  {
    assert RenderAll(a + b) == RenderAll(a) + RenderAll(b);
    JoinAppend(RenderAll(a), RenderAll(b), "; ");
  }

  /** `Workspace::promote` and src/lib.rs:40: rename a workspace to its title
      numbered 0, which puts it first in i3's order. */
  function PromoteCommand(name: string, title: string): (r: Command)
    ensures r.Rename? && r.from == name
    ensures r.to == Canonical(0, title)
    ensures NumOfName(r.to) == 0
    ensures TitleFromName(r.to) == SkipSpace(title)
  {
    NumOfCanonical(0, title);
    TitleOfCanonical(0, title);
    Rename(name, "0:" + title)
  }

  function Promote(w: Workspace): Command
  {
    PromoteCommand(w.name, Title(w))
  }
}

=== FILE: connection.dfy ===
/** The `I3ConnectionExt` methods of src/lib.rs. Each `get_workspaces` call
    is a workspace list passed in, and each `run_command` call is the string
    it would send, returned instead of sent. */
module Connection {
  import opened Wrappers
  import opened Text
  import opened Parser
  import opened Codec
  import opened Workspaces
  import opened Commands
  import opened Reconcile

  /** `wp_with_name_exists`. */
  function WpWithNameExists(wps: seq<Workspace>, name: string): (r: bool)
    ensures r <==> exists j :: 0 <= j < |wps| && wps[j].name == name
  {
    WithName(wps, name).Some?
  }

  /** `name_from_title`: the name of the first workspace with this title, or
      the error the method reports when there is none. */
  function NameFromTitle(wps: seq<Workspace>, title: string): (r: Result<string, string>)
    ensures r.Success? <==> exists j :: 0 <= j < |wps| && Title(wps[j]) == title
    ensures r.Success? ==> TitleFromName(r.value) == title
    ensures r.Success? ==> exists j :: 0 <= j < |wps| && wps[j].name == r.value && Title(wps[j]) == title &&
                                       forall k :: 0 <= k < j ==> Title(wps[k]) != title
    ensures r.Failure? ==> r.error == "No workspace with title \"" + title + "\" found"
  {
    match WithTitle(wps, title)
    case Some(i) => Success(wps[i].name)
    case None => Failure("No workspace with title \"" + title + "\" found")
  }

  /** The workspace `go_to` and `send_to` address: the name itself when a
      workspace has it, otherwise the title decoded from it. */
  function ResolveTarget(wps: seq<Workspace>, name: string): string
  {
    if WpWithNameExists(wps, name) then name else TitleFromName(name)
  }

  /** An existing workspace is addressed by its own name; for any other name
      the address is a suffix of it that starts with neither whitespace nor,
      when the name had a number or a colon in front, that number or colon. */
  lemma ResolveTargetSpec(wps: seq<Workspace>, name: string)
    ensures WpWithNameExists(wps, name) ==>
              ResolveTarget(wps, name) == name
              && exists j :: 0 <= j < |wps| && wps[j].name == ResolveTarget(wps, name)
    ensures !WpWithNameExists(wps, name) ==>
              IsSuffix(ResolveTarget(wps, name), name)
              && (ResolveTarget(wps, name) == [] || !IsSpace(ResolveTarget(wps, name)[0]))
              && (ResolveTarget(wps, name) == name <==>
                    name == [] || (!IsSpace(name[0]) && !IsDigit(name[0]) && name[0] != ':'))
  {
    TitleSpec(name);
    TitleIsWholeName(name);
  }

  /** `go_to`: focus the target. */
  function GoTo(wps: seq<Workspace>, name: string): seq<Command>
  {
    [Focus(ResolveTarget(wps, name))]
  }

  /** `send_to`: move the focused container to the target. */
  function SendTo(wps: seq<Workspace>, name: string): seq<Command>
  {
    [MoveTo(ResolveTarget(wps, name))]
  }

  /** `bring_to`: the `send_to` commands, then the `go_to` commands. */
  function BringTo(wps: seq<Workspace>, name: string): seq<Command>
  {
    SendTo(wps, name) + GoTo(wps, name)
  }

  /** Bringing is moving the container and then following it: two commands,
      the move first, both addressing the same workspace, sent as
      `move container to workspace T; workspace T`. */
  lemma BringToSpec(wps: seq<Workspace>, name: string)
    ensures |BringTo(wps, name)| == 2
    ensures BringTo(wps, name)[0] == SendTo(wps, name)[0]
    ensures BringTo(wps, name)[1] == GoTo(wps, name)[0]
    ensures BringTo(wps, name)[0].target == BringTo(wps, name)[1].target
    ensures Batch(BringTo(wps, name)) ==
              "move container to workspace " + ResolveTarget(wps, name)
              + "; " + "workspace " + ResolveTarget(wps, name)
  {
    BatchAppend(SendTo(wps, name), GoTo(wps, name));
    BatchShape(SendTo(wps, name));
    BatchShape(GoTo(wps, name));
  }

  /** `fixup_wps`: the single batch of renames it sends. */
  function FixupWps(wps: seq<Workspace>): string
  {
    Batch(Fixup(wps))
  }

  /** `promote_wp`: the promotion rename, sent alone, then the fixup of the
      list as i3 reports it afterwards (`refetched`). */
  function PromoteWp(name: string, title: string, refetched: seq<Workspace>): seq<string>
  {
    [Render(PromoteCommand(name, title)), FixupWps(refetched)]
  }

  /** The first batch of `promote_wp` renames the workspace to its title
      numbered 0; the second is empty exactly when i3 already reports the
      list numbered 1..n in order. */
  lemma PromoteWpSpec(name: string, title: string, refetched: seq<Workspace>)
    ensures |PromoteWp(name, title, refetched)| == 2
    ensures PromoteWp(name, title, refetched)[0] == Render(Rename(name, Canonical(0, title)))
    ensures NumOfName(Canonical(0, title)) == 0
    ensures TitleFromName(Canonical(0, title)) == SkipSpace(title)
    ensures PromoteWp(name, title, refetched)[1] == "" <==> Normalized(refetched)
  {
    NumOfCanonical(0, title);
    TitleOfCanonical(0, title);
    FixupEmptyIffNormalized(refetched);
    BatchShape(Fixup(refetched));
  }
}

=== FILE: dispatch.dfy ===
/** The decision logic of `handle_stream` (src/bin/fluidspaces.rs:82-202):
    from the request token and the workspace list to the three batches of
    commands it sends (action, promotion, fixup), or the error it returns.
    The picker (dmenu) is a function from the text it is shown to the text
    it answers, and the lists i3 reports after the action and after the
    promotion are passed in. */
module Dispatch {
  import opened Wrappers
  import opened Text
  import opened Parser
  import opened Codec
  import opened Workspaces
  import opened Commands
  import opened Reconcile

  /** The request tokens `handle_stream` understands. */
  datatype Action = GoTo | SendTo | BringTo | Toggle

  function ParseAction(message: string): Option<Action>
  {
    if message == "go_to" then Some(GoTo)
    else if message == "send_to" then Some(SendTo)
    else if message == "bring_to" then Some(BringTo)
    else if message == "toggle" then Some(Toggle)
    else None
  }

  /** The errors `handle_stream` raises itself. */
  datatype Error = NoFocusedWorkspace | NoSecondWorkspace | UnexpectedMessage(message: string)

  /** What a request comes to: nothing, because the user picked nothing; the
      three batches sent to i3, in order; or an error before any batch. */
  datatype Response =
    | Cancelled
    | Ran(action: seq<Command>, promote: seq<Command>, fixup: seq<Command>)
    | Failed(error: Error)

  /** `toggle`'s target: the name of the second workspace on the output of
      the focused workspace. */
  function ToggleTarget(wps: seq<Workspace>): Result<string, Error>
  {
    match Focused(wps)
    case None => Failure(NoFocusedWorkspace)
    case Some(f) =>
      match SecondOnOutput(wps, wps[f].output)
      case None => Failure(NoSecondWorkspace)
      case Some(s) => Success(wps[s].name)
  }

  /** `toggle` fails with "no focused workspace" exactly when none is
      focused, and with "no second workspace" exactly when the focused one is
      alone on its output; otherwise it names a workspace on the focused
      output that has exactly one other workspace of that output before it. */
  lemma ToggleTargetSpec(wps: seq<Workspace>)
    ensures ToggleTarget(wps) == Failure(NoFocusedWorkspace) <==>
              forall j :: 0 <= j < |wps| ==> !wps[j].focused
    ensures ToggleTarget(wps) == Failure(NoSecondWorkspace) <==>
              Focused(wps).Some? && CountOn(wps, wps[Focused(wps).value].output) < 2
    ensures ToggleTarget(wps).Success? ==>
              Focused(wps).Some?
              && var o := wps[Focused(wps).value].output;
                 exists j :: 0 <= j < |wps| && wps[j].output == o && CountOn(wps[..j], o) == 1
                             && wps[j].name == ToggleTarget(wps).value
  {
    match Focused(wps)
    case None =>
    case Some(f) =>
      SecondOnOutputSpec(wps, wps[f].output);
  }

  /** The target for a picked title: the name of the first workspace with
      that title, or else a new name, the next unused number and the title. */
  function PickedTarget(wps: seq<Workspace>, title: string): string
  {
    match WithTitle(wps, title)
    case Some(i) => wps[i].name
    case None => Canonical(NextUnusedNumber(wps), title)
  }

  /** Whatever the user picks, the target carries the picked title: an
      existing workspace is reused when one has that title, and otherwise
      the new name decodes back to the title and is numbered one past the
      end of the list. */
  lemma PickedTargetSpec(wps: seq<Workspace>, title: string)
    requires title != [] && !IsWhiteSpace(title[0])
    ensures TitleFromName(PickedTarget(wps, title)) == title
    ensures (exists j :: 0 <= j < |wps| && Title(wps[j]) == title) ==>
              exists j :: 0 <= j < |wps| && Title(wps[j]) == title && wps[j].name == PickedTarget(wps, title)
                          && forall k :: 0 <= k < j ==> Title(wps[k]) != title
    ensures (forall j :: 0 <= j < |wps| ==> Title(wps[j]) != title) ==>
              PickedTarget(wps, title) == Canonical(|wps| + 1, title)
              && (|wps| + 1 < 0x8000_0000 ==> NumOfName(PickedTarget(wps, title)) == |wps| + 1)
  {
    match WithTitle(wps, title)
    case Some(i) =>
    case None =>
      TitleOfCanonical(|wps| + 1, title);
      SkipSpaceStops(title);
      if |wps| + 1 < 0x8000_0000 {
        NumOfCanonical(|wps| + 1, title);
      }
  }

  /** The action commands for a target. Every command addresses the target;
      a container is moved exactly for `send_to` and `bring_to`, the user
      ends up on the target for every action but `send_to`, and only
      `bring_to` takes two commands, moving before following. */
  function ActionCommands(a: Action, target: string): (r: seq<Command>)
    ensures |r| == (if a == BringTo then 2 else 1)
    ensures forall k :: 0 <= k < |r| ==> (r[k].Focus? || r[k].MoveTo?) && r[k].target == target
    ensures r[0].MoveTo? <==> a == SendTo || a == BringTo
    ensures r[|r| - 1].Focus? <==> a != SendTo
  {
    match a
    case GoTo => [Focus(target)]
    case Toggle => [Focus(target)]
    case SendTo => [MoveTo(target)]
    case BringTo => [MoveTo(target), Focus(target)]
  }

  /** The promotion batch: the focused workspace renamed to its title
      numbered 0, or nothing when no workspace is focused. */
  function PromoteCommands(wps: seq<Workspace>): (r: seq<Command>)
    ensures |r| <= 1
    ensures r == [] <==> forall j :: 0 <= j < |wps| ==> !wps[j].focused
    ensures r != [] ==>
              Focused(wps).Some? && r[0].Rename? && r[0].from == wps[Focused(wps).value].name
              && NumOfName(r[0].to) == 0 && TitleFromName(r[0].to) == Title(wps[Focused(wps).value])
  {
    match Focused(wps)
    case None => []
    case Some(f) =>
      PromoteSpec(wps[f]);
      [Promote(wps[f])]
  }

  /** From a resolved target on: the token decides the action commands (an
      unknown token fails here, before anything is sent); then the
      promotion of the focused workspace in the list i3 reports after the
      action; then the fixup of the list it reports after the promotion. */
  function Act(message: string, target: string, afterAction: seq<Workspace>,
               afterPromote: seq<Workspace>): Response
  {
    match ParseAction(message)
    case None => Failed(UnexpectedMessage(message))
    case Some(a) => Ran(ActionCommands(a, target), PromoteCommands(afterAction), Fixup(afterPromote))
  }

  /** `handle_stream`. A request that runs sends its three batches in order:
      the action commands of a known token, a promotion of at most one
      command for the list i3 reports after the action, and the fixup of the
      list it reports after the promotion. */
  function HandleRequest(message: string, wps: seq<Workspace>, picker: string -> string,
                         afterAction: seq<Workspace>, afterPromote: seq<Workspace>): (r: Response)
    ensures r.Ran? ==>
              ParseAction(message).Some?
              && 1 <= |r.action| <= 2
              && r.promote == PromoteCommands(afterAction)
              && r.fixup == Fixup(afterPromote)
  {
    if message == "toggle" then
      match ToggleTarget(wps)
      case Failure(e) => Failed(e)
      case Success(target) => Act(message, target, afterAction, afterPromote)
    else
      var title := Trim(picker(ChoicesStr(wps)));
      if title == [] then Cancelled
      else Act(message, PickedTarget(wps, title), afterAction, afterPromote)
  }

  /** `toggle` never consults the picker and is never cancelled: it fails
      exactly as its target lookup does, or focuses that target. */
  lemma ToggleRequest(wps: seq<Workspace>, picker: string -> string, other: string -> string,
                      afterAction: seq<Workspace>, afterPromote: seq<Workspace>)
    ensures HandleRequest("toggle", wps, picker, afterAction, afterPromote)
            == HandleRequest("toggle", wps, other, afterAction, afterPromote)
    ensures HandleRequest("toggle", wps, picker, afterAction, afterPromote) != Cancelled
    ensures ToggleTarget(wps).Failure? ==>
              HandleRequest("toggle", wps, picker, afterAction, afterPromote) == Failed(ToggleTarget(wps).error)
    ensures ToggleTarget(wps).Success? ==>
              HandleRequest("toggle", wps, picker, afterAction, afterPromote).Ran?
              && HandleRequest("toggle", wps, picker, afterAction, afterPromote).action
                 == [Focus(ToggleTarget(wps).value)]
  {
  }

  /** Any other token shows the picker the choice list and is cancelled,
      with nothing sent, exactly when the answer is all white space. */
  lemma CancelledIff(message: string, wps: seq<Workspace>, picker: string -> string,
                     afterAction: seq<Workspace>, afterPromote: seq<Workspace>)
    requires message != "toggle"
    ensures HandleRequest(message, wps, picker, afterAction, afterPromote) == Cancelled
            <==> AllWhiteSpace(picker(ChoicesStr(wps)))
  {
    TrimEmptyIff(picker(ChoicesStr(wps)));
  }

  /** An unknown token fails, naming the token, once the user has picked
      something. */
  lemma UnknownTokenFails(message: string, wps: seq<Workspace>, picker: string -> string,
                          afterAction: seq<Workspace>, afterPromote: seq<Workspace>)
    requires ParseAction(message) == None
    requires !AllWhiteSpace(picker(ChoicesStr(wps)))
    ensures HandleRequest(message, wps, picker, afterAction, afterPromote) == Failed(UnexpectedMessage(message))
  {
    assert message != "toggle";
    TrimEmptyIff(picker(ChoicesStr(wps)));
  }

  /** That is the only way to get this error. */
  lemma UnexpectedOnlyForUnknown(message: string, wps: seq<Workspace>, picker: string -> string,
                                 afterAction: seq<Workspace>, afterPromote: seq<Workspace>)
    requires var r := HandleRequest(message, wps, picker, afterAction, afterPromote);
               r.Failed? && r.error.UnexpectedMessage?
    ensures ParseAction(message) == None
    ensures HandleRequest(message, wps, picker, afterAction, afterPromote).error.message == message
  {
  }

  /** A request for a picked title acts on the target that carries it, with
      the commands its token calls for. */
  lemma PickedRequest(message: string, wps: seq<Workspace>, picker: string -> string,
                      afterAction: seq<Workspace>, afterPromote: seq<Workspace>)
    requires message != "toggle" && ParseAction(message).Some?
    requires !AllWhiteSpace(picker(ChoicesStr(wps)))
    ensures var r := HandleRequest(message, wps, picker, afterAction, afterPromote);
            var title := Trim(picker(ChoicesStr(wps)));
            r.Ran? && r.action == ActionCommands(ParseAction(message).value, PickedTarget(wps, title))
            && TitleFromName(PickedTarget(wps, title)) == title
  {
    var pick := picker(ChoicesStr(wps));
    TrimEmptyIff(pick);
    TrimSpec(pick);
    PickedTargetSpec(wps, Trim(pick));
  }

  /** Given distinct titles in the list i3 reports after the promotion, a
      request that runs leaves the workspaces numbered 1..n in order. */
  lemma RanSettles(message: string, wps: seq<Workspace>, picker: string -> string,
                   afterAction: seq<Workspace>, afterPromote: seq<Workspace>)
    requires HandleRequest(message, wps, picker, afterAction, afterPromote).Ran?
    requires DistinctTitles(afterPromote) && |afterPromote| < 0x8000_0000
    ensures Normalized(ApplyRenames(afterPromote, HandleRequest(message, wps, picker, afterAction, afterPromote).fixup))
  {
    FixupIdempotent(afterPromote);
  }

  /** Toggling between two workspaces on one output: the second is focused,
      promoted to number 0, and the fixup then numbers both again from 1.
      Any two titles that decode to themselves will do. */
  lemma ToggleExample(a: string, b: string, o: string)
    requires PlainTitle(a) && PlainTitle(b)
    ensures var wps := [Workspace(Canonical(1, a), 1, o, true), Workspace(Canonical(2, b), 2, o, false)];
            var afterAction := [Workspace(Canonical(1, a), 1, o, false), Workspace(Canonical(2, b), 2, o, true)];
            var afterPromote := [Workspace(Canonical(0, b), 0, o, true), Workspace(Canonical(1, a), 1, o, false)];
            HandleRequest("toggle", wps, s => s, afterAction, afterPromote)
            == Ran([Focus(Canonical(2, b))],
                   [Rename(Canonical(2, b), Canonical(0, b))],
                   [Rename(Canonical(0, b), Canonical(1, b)), Rename(Canonical(1, a), Canonical(2, a))])
  {
    var wps := [Workspace(Canonical(1, a), 1, o, true), Workspace(Canonical(2, b), 2, o, false)];
    assert Focused(wps) == Some(0);
    assert SecondOnOutput(wps, o) == Some(1);
    TogglePromoteExample(a, b, o);
    ToggleFixupExample(a, b, o);
  }

  lemma TogglePromoteExample(a: string, b: string, o: string)
    requires PlainTitle(b)
    ensures PromoteCommands([Workspace(Canonical(1, a), 1, o, false), Workspace(Canonical(2, b), 2, o, true)])
            == [Rename(Canonical(2, b), Canonical(0, b))]
  {
    var wps := [Workspace(Canonical(1, a), 1, o, false), Workspace(Canonical(2, b), 2, o, true)];
    assert !wps[0].focused && wps[1].focused;
    assert Focused(wps) == Some(1);
    TitleOfCanonical(2, b);
    SkipSpaceStops(b);
  }

  lemma ToggleFixupExample(a: string, b: string, o: string)
    requires PlainTitle(a) && PlainTitle(b)
    ensures Fixup([Workspace(Canonical(0, b), 0, o, true), Workspace(Canonical(1, a), 1, o, false)])
            == [Rename(Canonical(0, b), Canonical(1, b)), Rename(Canonical(1, a), Canonical(2, a))]
  {
    var wps := [Workspace(Canonical(0, b), 0, o, true), Workspace(Canonical(1, a), 1, o, false)];
    TitleOfCanonical(0, b);
    TitleOfCanonical(1, a);
    SkipSpaceStops(a);
    SkipSpaceStops(b);
    FixupFromUnfold(wps, 0);
    FixupFromUnfold(wps, 1);
    assert FixupFrom(wps, 2) == [];
  }

  /** Toggling with a single workspace on the focused output fails. */
  lemma ToggleAloneExample()
    ensures var wps := [Workspace("1:a", 1, "o", true), Workspace("2:b", 2, "p", false)];
            HandleRequest("toggle", wps, s => s, [], []) == Failed(NoSecondWorkspace)
  {
    var wps := [Workspace("1:a", 1, "o", true), Workspace("2:b", 2, "p", false)];
    assert Focused(wps) == Some(0);
    assert SecondOnOutput(wps, "o") == None;
  }
}

=== FILE: parser.dfy ===
/** The prefix-splitting parsers a workspace name is read with: the three
    combinators `number`, `colon` and `the_rest` of src/parser.rs, and the
    whitespace eater `sp` that nom's `ws!` runs before and after a parser.
    Every parser works on complete input: running out of input is never
    "incomplete", it is the end.

    The parsers are plain computations; what each one guarantees is stated
    by the `...Spec` lemma that follows it. */
module Parser {
  import opened Wrappers
  import opened Text

  /** What a parser consumed, and the input it left for the next one. */
  datatype Split = Split(matched: string, rest: string)

  predicate IsDigit(c: char) { '0' <= c <= '9' }

  /** The separator set of nom's `sp`: space, tab, carriage return, line feed. */
  predicate IsSpace(c: char) { c == ' ' || c == '\t' || c == '\r' || c == '\n' }

  predicate AllDigits(s: string) { forall i :: 0 <= i < |s| ==> IsDigit(s[i]) }

  predicate AllSpaces(s: string) { forall i :: 0 <= i < |s| ==> IsSpace(s[i]) }

  lemma RestIsSuffix(sp: Split, s: string)
    requires sp.matched + sp.rest == s
    ensures IsSuffix(sp.rest, s)
  {
    assert s[|s| - |sp.rest|..] == (sp.matched + sp.rest)[|sp.matched|..];
  }

  /** `number`: the longest run of leading ASCII digits. */
  function Number(s: string): Split
  {
    if s != [] && IsDigit(s[0]) then
      var t := Number(s[1..]);
      Split([s[0]] + t.matched, t.rest)
    else
      Split([], s)
  }

  /** `number` never fails: it splits its input, in order, into the longest
      leading run of digits and what follows, which does not begin with a
      digit. */
  lemma {:induction false} NumberSpec(s: string)
    ensures Number(s).matched + Number(s).rest == s
    ensures AllDigits(Number(s).matched)
    ensures Number(s).rest == [] || !IsDigit(Number(s).rest[0])
  {
    if s != [] && IsDigit(s[0]) {
      NumberSpec(s[1..]);
      var t := Number(s[1..]);
      assert [s[0]] + t.matched + t.rest == [s[0]] + s[1..] == s;
      var m := Number(s).matched;
      assert m == [s[0]] + t.matched;
      forall i | 0 <= i < |m| ensures IsDigit(m[i]) {
        if i > 0 { assert m[i] == t.matched[i - 1]; }
      }
    }
  }

  /** Conversely, any split into digits and a rest that does not go on with a
      digit is the one `number` makes. */
  lemma {:induction false} NumberSplitsAt(d: string, rest: string)
    requires AllDigits(d)
    requires rest == [] || !IsDigit(rest[0])
    ensures Number(d + rest) == Split(d, rest)
  {
    if d == [] {
      assert d + rest == rest;
    } else {
      assert (d + rest)[0] == d[0];
      assert (d + rest)[1..] == d[1..] + rest;
      assert AllDigits(d[1..]) by {
        forall i | 0 <= i < |d[1..]| ensures IsDigit(d[1..][i]) {
          assert d[1..][i] == d[i + 1];
        }
      }
      NumberSplitsAt(d[1..], rest);
      assert [d[0]] + d[1..] == d;
    }
  }

  /** `colon`: exactly one leading ':'; otherwise a tag error carrying the
      whole unconsumed input. */
  function Colon(s: string): Result<Split, string>
  {
    if s != [] && s[0] == ':' then Success(Split(":", s[1..])) else Failure(s)
  }

  /** `colon` succeeds exactly on input that starts with ':', consuming that
      one character and nothing else; on failure it reports the input as it
      was. */
  lemma ColonSpec(s: string)
    ensures Colon(s).Success? <==> s != [] && s[0] == ':'
    ensures Colon(s).Success? ==>
              Colon(s).value.matched == ":" && Colon(s).value.matched + Colon(s).value.rest == s
    ensures Colon(s).Failure? ==> Colon(s).error == s
  {
    if s != [] && s[0] == ':' {
      assert s == [s[0]] + s[1..];
    }
  }

  /** `the_rest`: everything, leaving nothing. */
  function TheRest(s: string): Split
  {
    Split(s, [])
  }

  /** nom's `sp`: drops the leading run of separator characters. */
  function SkipSpace(s: string): string
  {
    if s != [] && IsSpace(s[0]) then SkipSpace(s[1..]) else s
  }

  /** `sp` drops separator characters and stops at the first other one. */
  lemma {:induction false} SkipSpaceSpec(s: string)
    ensures IsSuffix(SkipSpace(s), s)
    ensures AllSpaces(s[..|s| - |SkipSpace(s)|])
    ensures SkipSpace(s) == [] || !IsSpace(SkipSpace(s)[0])
  {
    if s != [] && IsSpace(s[0]) {
      SkipSpaceSpec(s[1..]);
      var t := SkipSpace(s[1..]);
      assert IsSuffix(s[1..], s);
      SuffixTransitive(t, s[1..], s);
      var n := |s| - |t|;
      forall i | 0 <= i < n ensures IsSpace(s[..n][i]) {
        if i > 0 {
          assert s[..n][i] == s[1..][..n - 1][i - 1];
        }
      }
    }
  }

  /** Running `sp` on input that does not begin with a separator is a no-op. */
  lemma SkipSpaceStops(s: string)
    requires s == [] || !IsSpace(s[0])
    ensures SkipSpace(s) == s
  {
  }

  lemma SkipSpaceIdempotent(s: string)
    ensures SkipSpace(SkipSpace(s)) == SkipSpace(s)
  {
    SkipSpaceSpec(s);
    SkipSpaceStops(SkipSpace(s));
  }

  /** The unit tests of the three combinators in src/parser.rs. */
  lemma NumberExamples()
    ensures Number("7") == Split("7", "")
    ensures Number("77") == Split("77", "")
    ensures Number("7a") == Split("7", "a")
    ensures Number("77a") == Split("77", "a")
    ensures Number("a") == Split("", "a")
    ensures Number(":") == Split("", ":")
    ensures Number("a7") == Split("", "a7")
    ensures Number(":7") == Split("", ":7")
  {
  }

  lemma ColonExamples()
    ensures Colon(":") == Success(Split(":", ""))
    ensures Colon(":7") == Success(Split(":", "7"))
    ensures Colon(":a") == Success(Split(":", "a"))
    ensures Colon("7:") == Failure("7:")
    ensures Colon("a:") == Failure("a:")
  {
  }

  lemma TheRestExamples()
    ensures TheRest("") == Split("", "")
    ensures TheRest("a") == Split("a", "")
    ensures TheRest("aa") == Split("aa", "")
    ensures TheRest("a a") == Split("a a", "")
    ensures TheRest("a:a") == Split("a:a", "")
  {
  }
}

=== FILE: reconcile.dfy ===
/** `fixup_wps` (src/lib.rs:64-102): renumber the workspaces 1..n in list
    order, renaming only those whose number is wrong. To say what the renames
    achieve, the module also models how i3 carries out a rename: the
    workspace with the old name takes the new name, and its number is read
    back from the new name. */
module Reconcile {
  import opened Wrappers
  import opened Parser
  import opened Codec
  import opened Workspaces
  import opened Commands

  /** The number a workspace had before the fixup; a negative number (i3's
      mark for "no number") counts as 0. */
  function OldNum(w: Workspace): nat
  {
    if w.num >= 0 then w.num else 0
  }

  /** The workspace at position `i` is renamed unless it is already
      numbered `i + 1`. */
  predicate NeedsRename(wps: seq<Workspace>, i: nat)
    requires i < |wps|
  {
    OldNum(wps[i]) != i + 1
  }

  /** The rename the fixup issues for position `i`: to `<i+1>:<title>`. */
  function RenameAt(wps: seq<Workspace>, i: nat): Command
    requires i < |wps|
  {
    Rename(wps[i].name, Canonical(i + 1, Title(wps[i])))
  }

  /** The positions from `i` on that the fixup renames, in list order. */
  function PlanFrom(wps: seq<Workspace>, i: nat): (r: seq<nat>)
    requires i <= |wps|
    ensures forall k :: 0 <= k < |r| ==> i <= r[k] < |wps|
    decreases |wps| - i
  {
    if i == |wps| then []
    else if NeedsRename(wps, i) then [i] + PlanFrom(wps, i + 1)
    else PlanFrom(wps, i + 1)
  }

  /** The plan from `i` on is strictly increasing. */
  lemma {:induction false} PlanFromSorted(wps: seq<Workspace>, i: nat)
    requires i <= |wps|
    ensures forall k, l :: 0 <= k < l < |PlanFrom(wps, i)| ==> PlanFrom(wps, i)[k] < PlanFrom(wps, i)[l]
    decreases |wps| - i
  {
    if i < |wps| {
      PlanFromSorted(wps, i + 1);
      var t := PlanFrom(wps, i + 1);
      if NeedsRename(wps, i) {
        var r := [i] + t;
        assert PlanFrom(wps, i) == r;
        forall k, l | 0 <= k < l < |r| ensures r[k] < r[l] {
          assert r[l] == t[l - 1];
          if k > 0 {
            assert r[k] == t[k - 1];
          }
        }
      } else {
        assert PlanFrom(wps, i) == t;
      }
    }
  }

  /** The plan from `i` on holds exactly the positions from `i` on that need
      a rename. */
  lemma {:induction false} PlanFromMembers(wps: seq<Workspace>, i: nat)
    requires i <= |wps|
    ensures forall p :: i <= p < |wps| ==> (p in PlanFrom(wps, i) <==> NeedsRename(wps, p))
    decreases |wps| - i
  {
    if i < |wps| {
      PlanFromMembers(wps, i + 1);
      var t := PlanFrom(wps, i + 1);
      assert i !in t;
      if NeedsRename(wps, i) {
        assert PlanFrom(wps, i) == [i] + t;
      } else {
        assert PlanFrom(wps, i) == t;
      }
    }
  }

  /** The plan is no longer than the part of the list it covers. */
  lemma {:induction false} PlanFromLength(wps: seq<Workspace>, i: nat)
    requires i <= |wps|
    ensures |PlanFrom(wps, i)| <= |wps| - i
    decreases |wps| - i
  {
    if i < |wps| {
      PlanFromLength(wps, i + 1);
    }
  }

  /** The positions the fixup renames: each at most once, in increasing
      order, and exactly those whose number differs from their position plus
      one; in particular every workspace with a negative number. */
  function FixupPlan(wps: seq<Workspace>): (r: seq<nat>)
    ensures |r| <= |wps|
    ensures forall k :: 0 <= k < |r| ==> r[k] < |wps|
    ensures forall k, l :: 0 <= k < l < |r| ==> r[k] < r[l]
    ensures forall p :: 0 <= p < |wps| ==> (p in r <==> wps[p].num != p + 1)
    ensures forall p :: 0 <= p < |wps| && wps[p].num < 0 ==> p in r
  {
    PlanFromLength(wps, 0);
    PlanFromSorted(wps, 0);
    PlanFromMembers(wps, 0);
    PlanFrom(wps, 0)
  }

  function FixupFrom(wps: seq<Workspace>, i: nat): seq<Command>
    requires i <= |wps|
    decreases |wps| - i
  {
    if i == |wps| then []
    else if NeedsRename(wps, i) then [RenameAt(wps, i)] + FixupFrom(wps, i + 1)
    else FixupFrom(wps, i + 1)
  }

  /** `fixup_wps`: the renames, in list order. */
  function Fixup(wps: seq<Workspace>): seq<Command>
  {
    FixupFrom(wps, 0)
  }

  /** Command `k` renames the workspace at planned position `k`. */
  predicate Follows(wps: seq<Workspace>, cmds: seq<Command>, plan: seq<nat>)
  {
    |cmds| == |plan|
    && forall k :: 0 <= k < |plan| ==> plan[k] < |wps| && cmds[k] == RenameAt(wps, plan[k])
  }

  lemma FollowsCons(wps: seq<Workspace>, i: nat, cmds: seq<Command>, plan: seq<nat>)
    requires i < |wps| && Follows(wps, cmds, plan)
    ensures Follows(wps, [RenameAt(wps, i)] + cmds, [i] + plan)
  {
    var c, p := [RenameAt(wps, i)] + cmds, [i] + plan;
    forall k | 0 < k < |p|
      ensures p[k] < |wps| && c[k] == RenameAt(wps, p[k])
    {
      assert p[k] == plan[k - 1] && c[k] == cmds[k - 1];
    }
  }

  lemma {:induction false} FixupFromFollowsPlan(wps: seq<Workspace>, i: nat)
    requires i <= |wps|
    ensures Follows(wps, FixupFrom(wps, i), PlanFrom(wps, i))
    decreases |wps| - i
  {
    if i < |wps| {
      FixupFromFollowsPlan(wps, i + 1);
      if NeedsRename(wps, i) {
        FollowsCons(wps, i, FixupFrom(wps, i + 1), PlanFrom(wps, i + 1));
      }
    }
  }

  /** Command `k` of the fixup renames the `k`-th planned workspace from its
      current name to `<position+1>:<title>`: one command per renamed
      workspace, in list order. */
  lemma FixupFollowsPlan(wps: seq<Workspace>)
    ensures |Fixup(wps)| == |FixupPlan(wps)|
    ensures forall k :: 0 <= k < |FixupPlan(wps)| ==>
              Fixup(wps)[k] == Rename(wps[FixupPlan(wps)[k]].name,
                                      Canonical(FixupPlan(wps)[k] + 1, Title(wps[FixupPlan(wps)[k]])))
  {
    FixupFromFollowsPlan(wps, 0);
  }

  /** The fixup issues nothing exactly when the list is already numbered
      1..n in order. */
  lemma FixupEmptyIffNormalized(wps: seq<Workspace>)
    ensures Fixup(wps) == [] <==> Normalized(wps)
  {
    FixupFollowsPlan(wps);
    var plan := FixupPlan(wps);
    if plan != [] {
      assert plan[0] in plan;
    }
  }

  /** The promotion rename gives the workspace the number 0 and keeps its
      title. */
  lemma PromoteSpec(w: Workspace)
    ensures Promote(w).from == w.name
    ensures NumOfName(Promote(w).to) == 0
    ensures TitleFromName(Promote(w).to) == Title(w)
  {
    NumOfCanonical(0, Title(w));
    TitleRoundTrip(0, w.name);
  }

  /** How i3 carries out one command on the workspace list: a rename moves
      the first workspace with the old name to the new name and renumbers it
      from that name, unless another workspace already has the new name or
      none has the old one. Other commands leave the list alone. */
  function ApplyRename(wps: seq<Workspace>, c: Command): (r: seq<Workspace>)
    ensures |r| == |wps|
  {
    match c
    case Rename(a, b) =>
      (match WithName(wps, a)
       case Some(i) =>
         if exists j :: 0 <= j < |wps| && j != i && wps[j].name == b then wps
         else wps[i := wps[i].(name := b, num := NumOfName(b))]
       case None => wps)
    case _ => wps
  }

  /** i3 running a batch: the commands one after the other. */
  function ApplyRenames(wps: seq<Workspace>, cmds: seq<Command>): (r: seq<Workspace>)
    ensures |r| == |wps|
    decreases |cmds|
  {
    if cmds == [] then wps else ApplyRenames(ApplyRename(wps, cmds[0]), cmds[1..])
  }

  /** The list i3 reports once it has run the fixup. */
  function AfterFixup(wps: seq<Workspace>): seq<Workspace>
  {
    ApplyRenames(wps, Fixup(wps))
  }

  predicate DistinctTitles(wps: seq<Workspace>)
  {
    forall j, k :: 0 <= j < |wps| && 0 <= k < |wps| && j != k ==> Title(wps[j]) != Title(wps[k])
  }

  /** Workspace `j` as the fixup leaves it when it renames it. */
  function Renumbered(wps: seq<Workspace>, j: nat): Workspace
    requires j < |wps| < 0x8000_0000
  {
    wps[j].(name := Canonical(j + 1, Title(wps[j])), num := j + 1)
  }

  /** The list once the fixup's renames for positions before `i` are done. */
  function Renamed(wps: seq<Workspace>, i: nat): (r: seq<Workspace>)
    requires i <= |wps| < 0x8000_0000
    ensures |r| == |wps|
  {
    seq(|wps|, j requires 0 <= j < |wps| =>
      if j < i && NeedsRename(wps, j) then Renumbered(wps, j) else wps[j])
  }

  lemma RenamedKeepsTitles(wps: seq<Workspace>, i: nat)
    requires i <= |wps| < 0x8000_0000
    ensures forall j :: 0 <= j < |wps| ==> Title(Renamed(wps, i)[j]) == Title(wps[j])
  {
    forall j | 0 <= j < |wps|
      ensures Title(Renamed(wps, i)[j]) == Title(wps[j])
    {
      TitleRoundTrip(j + 1, wps[j].name);
    }
  }

  /** The rename for a position that needs one does exactly that position's
      renaming: its old name is found at that position and nowhere before,
      and its new name is nobody else's, because titles are distinct. */
  lemma RenameStep(wps: seq<Workspace>, i: nat)
    requires DistinctTitles(wps)
    requires i < |wps| < 0x8000_0000
    requires NeedsRename(wps, i)
    ensures ApplyRename(Renamed(wps, i), RenameAt(wps, i)) == Renamed(wps, i + 1)
  {
    var s := Renamed(wps, i);
    RenamedKeepsTitles(wps, i);
    var oldName := wps[i].name;
    var newName := Canonical(i + 1, Title(wps[i]));
    assert s[i] == wps[i];
    forall j | 0 <= j < |s| && j != i
      ensures s[j].name != oldName && s[j].name != newName
    {
      assert Title(s[j]) == Title(wps[j]);
      TitleRoundTrip(i + 1, oldName);
    }
    assert WithName(s, oldName) == Some(i);
    NumOfCanonical(i + 1, Title(wps[i]));
    var r := s[i := s[i].(name := newName, num := NumOfName(newName))];
    assert ApplyRename(s, RenameAt(wps, i)) == r;
    forall j | 0 <= j < |wps|
      ensures r[j] == Renamed(wps, i + 1)[j]
    {
    }
  }

  lemma SkipStep(wps: seq<Workspace>, i: nat)
    requires i < |wps| < 0x8000_0000
    requires !NeedsRename(wps, i)
    ensures Renamed(wps, i) == Renamed(wps, i + 1)
  {
    forall j | 0 <= j < |wps|
      ensures Renamed(wps, i)[j] == Renamed(wps, i + 1)[j]
    {
    }
  }

  lemma ApplyRenamesCons(wps: seq<Workspace>, c: Command, cmds: seq<Command>)
    ensures ApplyRenames(wps, [c] + cmds) == ApplyRenames(ApplyRename(wps, c), cmds)
  {
    assert ([c] + cmds)[1..] == cmds;
  }

  /** One position of the fixup: its command, if any, turns the list renamed
      up to `i` into the list renamed up to `i + 1`. */
  lemma SimulationStep(wps: seq<Workspace>, i: nat)
    requires DistinctTitles(wps)
    requires i < |wps| < 0x8000_0000
    ensures ApplyRenames(Renamed(wps, i), FixupFrom(wps, i))
            == ApplyRenames(Renamed(wps, i + 1), FixupFrom(wps, i + 1))
  {
    var rest := FixupFrom(wps, i + 1);
    if NeedsRename(wps, i) {
      assert FixupFrom(wps, i) == [RenameAt(wps, i)] + rest;
      ApplyRenamesCons(Renamed(wps, i), RenameAt(wps, i), rest);
      RenameStep(wps, i);
    } else {
      assert FixupFrom(wps, i) == rest;
      SkipStep(wps, i);
    }
  }

  lemma {:induction false} FixupSimulation(wps: seq<Workspace>, i: nat)
    requires DistinctTitles(wps)
    requires i <= |wps| < 0x8000_0000
    ensures ApplyRenames(Renamed(wps, i), FixupFrom(wps, i)) == Renamed(wps, |wps|)
    decreases |wps| - i
  {
    if i < |wps| {
      SimulationStep(wps, i);
      FixupSimulation(wps, i + 1);
    } else {
      SimulationEnd(wps);
    }
  }

  lemma SimulationEnd(wps: seq<Workspace>)
    requires |wps| < 0x8000_0000
    ensures ApplyRenames(Renamed(wps, |wps|), FixupFrom(wps, |wps|)) == Renamed(wps, |wps|)
  {
    assert FixupFrom(wps, |wps|) == [];
  }

  /** With distinct titles, the list i3 reports after the fixup is the list
      with every planned workspace renumbered. */
  lemma AfterFixupRenumbers(wps: seq<Workspace>)
    requires DistinctTitles(wps)
    requires |wps| < 0x8000_0000
    ensures AfterFixup(wps) == Renamed(wps, |wps|)
  {
    assert Renamed(wps, 0) == wps;
    FixupSimulation(wps, 0);
  }

  /** Renumbering every planned workspace numbers each by its position and
      keeps titles, outputs and focus; correctly numbered ones are untouched. */
  lemma RenamedAllSpec(wps: seq<Workspace>)
    requires |wps| < 0x8000_0000
    ensures Normalized(Renamed(wps, |wps|))
    ensures forall j :: 0 <= j < |wps| ==>
              Title(Renamed(wps, |wps|)[j]) == Title(wps[j])
              && Renamed(wps, |wps|)[j].output == wps[j].output
              && Renamed(wps, |wps|)[j].focused == wps[j].focused
    ensures forall j :: 0 <= j < |wps| && wps[j].num == j + 1 ==> Renamed(wps, |wps|)[j] == wps[j]
  {
    RenamedKeepsTitles(wps, |wps|);
  }

  /** Fixup is idempotent: once i3 has run its renames, every workspace is
      numbered by its position, titles, outputs, focus and order are kept,
      workspaces already numbered right are untouched, and a second fixup
      issues nothing. Titles must be distinct (otherwise a new name can be
      taken by another workspace) and the list must fit i3's 32-bit numbers. */
  lemma FixupIdempotent(wps: seq<Workspace>)
    requires DistinctTitles(wps)
    requires |wps| < 0x8000_0000
    ensures |AfterFixup(wps)| == |wps|
    ensures Normalized(AfterFixup(wps))
    ensures Fixup(AfterFixup(wps)) == []
    ensures forall j :: 0 <= j < |wps| ==>
              Title(AfterFixup(wps)[j]) == Title(wps[j])
              && AfterFixup(wps)[j].output == wps[j].output
              && AfterFixup(wps)[j].focused == wps[j].focused
    ensures forall j :: 0 <= j < |wps| && wps[j].num == j + 1 ==> AfterFixup(wps)[j] == wps[j]
  {
    AfterFixupRenumbers(wps);
    RenamedAllSpec(wps);
    FixupEmptyIffNormalized(AfterFixup(wps));
  }

  /** A title that a name can carry on its own: it does not start with
      white space, a digit or a colon. */
  predicate PlainTitle(t: string)
  {
    t != [] && !IsSpace(t[0]) && !IsDigit(t[0]) && t[0] != ':'
  }

  /** Two workspaces on output `o` titled alike: one named by the bare title
      (so unnumbered), one numbered 1. */
  function LookAlikes(t: string, o: string): seq<Workspace>
  {
    [Workspace(t, -1, o, true), Workspace(Canonical(1, t), 1, o, false)]
  }

  /** A canonical name starts with its number's first digit, so it is never
      a plain title and differs from the canonical name of another one-digit
      number. */
  lemma CanonicalHead(n: nat, t: string)
    requires 0 < n < 10
    ensures Canonical(n, t)[0] == DigitChar(n) && IsDigit(Canonical(n, t)[0])
  {
  }

  lemma LookAlikesTitles(t: string, o: string)
    requires PlainTitle(t)
    ensures Title(LookAlikes(t, o)[0]) == t && Title(LookAlikes(t, o)[1]) == t
  {
    TitleIsWholeName(t);
    TitleOfCanonical(1, t);
    SkipSpaceStops(t);
  }

  lemma LookAlikesRenames(t: string, o: string)
    requires PlainTitle(t)
    ensures NeedsRename(LookAlikes(t, o), 0)
    ensures RenameAt(LookAlikes(t, o), 0) == Rename(t, Canonical(1, t))
    ensures NeedsRename(LookAlikes(t, o), 1)
    ensures RenameAt(LookAlikes(t, o), 1) == Rename(Canonical(1, t), Canonical(2, t))
  {
    LookAlikesTitles(t, o);
  }

  lemma FixupFromUnfold(wps: seq<Workspace>, i: nat)
    requires i < |wps|
    ensures FixupFrom(wps, i) ==
              (if NeedsRename(wps, i) then [RenameAt(wps, i)] else []) + FixupFrom(wps, i + 1)
  {
  }

  lemma LookAlikesFixup(t: string, o: string)
    requires PlainTitle(t)
    ensures Fixup(LookAlikes(t, o)) == [Rename(t, Canonical(1, t)), Rename(Canonical(1, t), Canonical(2, t))]
  {
    var wps := LookAlikes(t, o);
    LookAlikesRenames(t, o);
    FixupFromUnfold(wps, 0);
    FixupFromUnfold(wps, 1);
    assert FixupFrom(wps, 2) == [];
  }

  /** The first rename is refused: its new name is the second workspace's. */
  lemma LookAlikesFirstRefused(t: string, o: string)
    ensures ApplyRename(LookAlikes(t, o), Rename(t, Canonical(1, t))) == LookAlikes(t, o)
  {
    var wps := LookAlikes(t, o);
    assert WithName(wps, t) == Some(0);
    assert wps[1].name == Canonical(1, t);
  }

  /** The second rename goes through and numbers the workspace 2. */
  lemma LookAlikesSecondDone(t: string, o: string)
    requires PlainTitle(t)
    ensures ApplyRename(LookAlikes(t, o), Rename(Canonical(1, t), Canonical(2, t)))
              == [Workspace(t, -1, o, true), Workspace(Canonical(2, t), 2, o, false)]
  {
    var wps := LookAlikes(t, o);
    CanonicalHead(1, t);
    CanonicalHead(2, t);
    assert wps[0].name != Canonical(1, t) && wps[1].name == Canonical(1, t);
    assert WithName(wps, Canonical(1, t)) == Some(1);
    assert wps[0].name != Canonical(2, t);
    NumOfCanonical(2, t);
  }

  lemma LookAlikesAfterFixup(t: string, o: string)
    requires PlainTitle(t)
    ensures AfterFixup(LookAlikes(t, o))
              == [Workspace(t, -1, o, true), Workspace(Canonical(2, t), 2, o, false)]
  {
    var wps := LookAlikes(t, o);
    var cmds := [Rename(t, Canonical(1, t)), Rename(Canonical(1, t), Canonical(2, t))];
    LookAlikesFixup(t, o);
    LookAlikesFirstRefused(t, o);
    LookAlikesSecondDone(t, o);
    assert cmds[1..][1..] == [];
    assert ApplyRenames(wps, cmds) == ApplyRenames(wps, cmds[1..]);
  }

  /** With two workspaces titled alike, one fixup is not enough: the first
      rename is refused because its new name is taken, and the list is left
      unnormalized, so a second fixup still has work to do. */
  lemma FixupNeedsDistinctTitles(t: string, o: string)
    requires PlainTitle(t)
    ensures !DistinctTitles(LookAlikes(t, o))
    ensures !Normalized(AfterFixup(LookAlikes(t, o)))
    ensures Fixup(AfterFixup(LookAlikes(t, o))) != []
  {
    LookAlikesAfterFixup(t, o);
    var after := AfterFixup(LookAlikes(t, o));
    assert after[0].num != 1;
    FixupEmptyIffNormalized(after);
    LookAlikesTitles(t, o);
  }
}

=== FILE: text.dfy ===
/** String utilities the rest of the model shares: suffixes, Rust's
    `[String]::join`, a splitter that undoes it, and Rust's `str::trim`. */
module Text {

  /** `r` is what is left of `s` once a prefix has been consumed. */
  predicate IsSuffix(r: string, s: string)
  {
    |r| <= |s| && s[|s| - |r|..] == r
  }

  lemma SuffixTransitive(r: string, s: string, t: string)
    requires IsSuffix(r, s) && IsSuffix(s, t)
    ensures IsSuffix(r, t)
  {
    assert t[|t| - |r|..] == t[|t| - |s|..][|s| - |r|..];
  }

  /** `parts.join(sep)`: the parts in order, with `sep` between neighbours. */
  function Join(parts: seq<string>, sep: string): string
  {
    if |parts| == 0 then ""
    else if |parts| == 1 then parts[0]
    else parts[0] + sep + Join(parts[1..], sep)
  }

  /** Cutting a string at every occurrence of `c`; the pieces never contain `c`
      and there is always at least one. */
  function SplitOn(s: string, c: char): (r: seq<string>)
    ensures |r| > 0
    ensures forall i :: 0 <= i < |r| ==> c !in r[i]
  {
    if s == [] then [[]]
    else if s[0] == c then [[]] + SplitOn(s[1..], c)
    else
      var t := SplitOn(s[1..], c);
      [[s[0]] + t[0]] + t[1..]
  }

  lemma {:induction false} SplitOnWithout(s: string, c: char)
    requires c !in s
    ensures SplitOn(s, c) == [s]
  {
    if s != [] {
      assert c !in s[1..] by {
        assert forall i :: 0 <= i < |s[1..]| ==> s[1..][i] == s[i + 1];
      }
      SplitOnWithout(s[1..], c);
      assert [s[0]] + s[1..] == s;
    }
  }

  lemma {:induction false} SplitOnFirst(p: string, c: char, t: string)
    requires c !in p
    ensures SplitOn(p + [c] + t, c) == [p] + SplitOn(t, c)
  {
    var s := p + [c] + t;
    if p == [] {
      assert s[0] == c && s[1..] == t;
    } else {
      assert s[0] == p[0];
      assert s[1..] == p[1..] + [c] + t;
      assert c !in p[1..] by {
        assert forall i :: 0 <= i < |p[1..]| ==> p[1..][i] == p[i + 1];
      }
      SplitOnFirst(p[1..], c, t);
      assert [p[0]] + p[1..] == p;
    }
  }

  /** Joining with a one-character separator that no part contains can be
      undone: cutting the result at that character gives the parts back. So
      the joined string holds exactly the parts, in order. */
  lemma {:induction false} JoinSplitRoundTrip(parts: seq<string>, c: char)
    requires |parts| > 0
    requires forall i :: 0 <= i < |parts| ==> c !in parts[i]
    ensures SplitOn(Join(parts, [c]), c) == parts
  {
    if |parts| == 1 {
      SplitOnWithout(parts[0], c);
    } else {
      JoinSplitRoundTrip(parts[1..], c);
      SplitOnFirst(parts[0], c, Join(parts[1..], [c]));
      assert parts == [parts[0]] + parts[1..];
    }
  }

  /** Joining two non-empty lists one after the other is joining each and
      putting one separator between the two. */
  lemma {:induction false} JoinAppend(p: seq<string>, q: seq<string>, sep: string)
    requires |p| > 0 && |q| > 0
    ensures Join(p + q, sep) == Join(p, sep) + sep + Join(q, sep)
  {
    assert (p + q)[0] == p[0];
    if |p| == 1 {
      assert (p + q)[1..] == q;
    } else {
      assert (p + q)[1..] == p[1..] + q;
      JoinAppend(p[1..], q, sep);
    }
  }

  /** The characters with the Unicode `White_Space` property, which Rust's
      `char::is_whitespace` and therefore `str::trim` use. */
  predicate IsWhiteSpace(c: char)
  {
    ('\U{9}' <= c <= '\U{D}') || c == ' ' || c == '\U{85}' || c == '\U{A0}'
    || c == '\U{1680}' || ('\U{2000}' <= c <= '\U{200A}') || c == '\U{2028}'
    || c == '\U{2029}' || c == '\U{202F}' || c == '\U{205F}' || c == '\U{3000}'
  }

  predicate AllWhiteSpace(s: string)
  {
    forall i :: 0 <= i < |s| ==> IsWhiteSpace(s[i])
  }

  /** `str::trim_start`. */
  function TrimStart(s: string): string
  {
    if s != [] && IsWhiteSpace(s[0]) then TrimStart(s[1..]) else s
  }

  /** `str::trim_end`. */
  function TrimEnd(s: string): string
  {
    if s != [] && IsWhiteSpace(s[|s| - 1]) then TrimEnd(s[..|s| - 1]) else s
  }

  /** `str::trim`: leading and trailing white space removed. */
  function Trim(s: string): string
  {
    TrimEnd(TrimStart(s))
  }

  lemma {:induction false} TrimStartSpec(s: string)
    ensures IsSuffix(TrimStart(s), s)
    ensures AllWhiteSpace(s[..|s| - |TrimStart(s)|])
    ensures TrimStart(s) == [] || !IsWhiteSpace(TrimStart(s)[0])
  {
    if s != [] && IsWhiteSpace(s[0]) {
      TrimStartSpec(s[1..]);
      var t := TrimStart(s[1..]);
      assert IsSuffix(s[1..], s);
      SuffixTransitive(t, s[1..], s);
      var n := |s| - |t|;
      forall i | 0 <= i < n ensures IsWhiteSpace(s[..n][i]) {
        if i > 0 {
          assert s[..n][i] == s[1..][..n - 1][i - 1];
        }
      }
    }
  }

  lemma {:induction false} TrimEndSpec(s: string)
    ensures |TrimEnd(s)| <= |s| && s[..|TrimEnd(s)|] == TrimEnd(s)
    ensures AllWhiteSpace(s[|TrimEnd(s)|..])
    ensures TrimEnd(s) == [] || !IsWhiteSpace(TrimEnd(s)[|TrimEnd(s)| - 1])
  {
    if s != [] && IsWhiteSpace(s[|s| - 1]) {
      var u := s[..|s| - 1];
      TrimEndSpec(u);
      var t := TrimEnd(u);
      assert s[..|t|] == u[..|t|];
      var dropped := s[|t|..];
      assert dropped == u[|t|..] + [s[|s| - 1]];
      forall i | 0 <= i < |dropped| ensures IsWhiteSpace(dropped[i]) {
        if i < |dropped| - 1 { assert dropped[i] == u[|t|..][i]; }
      }
    }
  }

  /** `trim` keeps a contiguous middle part of its input: what it drops on
      either side is white space, and what it keeps neither starts nor ends
      with white space. */
  lemma TrimSpec(s: string)
    ensures |TrimStart(s)| <= |s|
    ensures var lead := |s| - |TrimStart(s)|;
            lead + |Trim(s)| <= |s|
            && s[lead..lead + |Trim(s)|] == Trim(s)
            && AllWhiteSpace(s[..lead])
            && AllWhiteSpace(s[lead + |Trim(s)|..])
    ensures Trim(s) == [] || (!IsWhiteSpace(Trim(s)[0]) && !IsWhiteSpace(Trim(s)[|Trim(s)| - 1]))
  {
    var a := TrimStart(s);
    var lead := |s| - |a|;
    TrimStartSpec(s);
    TrimEndSpec(a);
    var t := Trim(s);
    assert a == s[lead..];
    assert s[lead..lead + |t|] == a[..|t|];
    assert s[lead + |t|..] == a[|t|..];
    if t != [] {
      assert t[0] == a[0];
    }
  }

  /** A pick trims to nothing exactly when it is all white space. */
  lemma TrimEmptyIff(s: string)
    ensures Trim(s) == [] <==> AllWhiteSpace(s)
  {
    TrimSpec(s);
    var lead := |s| - |TrimStart(s)|;
    if Trim(s) == [] {
      assert s == s[..lead] + s[lead..];
      forall i | 0 <= i < |s| ensures IsWhiteSpace(s[i]) {
        if i < lead { assert s[i] == s[..lead][i]; } else { assert s[i] == s[lead..][i - lead]; }
      }
    } else {
      assert s[lead] == Trim(s)[0];
    }
  }

  lemma {:induction false} TrimStartStops(s: string)
    requires s == [] || !IsWhiteSpace(s[0])
    ensures TrimStart(s) == s
  {
  }

  lemma {:induction false} TrimEndStops(s: string)
    requires s == [] || !IsWhiteSpace(s[|s| - 1])
    ensures TrimEnd(s) == s
  {
  }

  /** Trimming twice is trimming once. */
  lemma TrimIdempotent(s: string)
    ensures Trim(Trim(s)) == Trim(s)
  {
    TrimSpec(s);
    TrimStartStops(Trim(s));
    TrimEndStops(Trim(s));
  }
}

=== FILE: workspaces.dfy ===
/** The workspace list i3 reports and the queries src/lib.rs makes of it:
    lookups by name, title and number, the picker's choice list, and the
    helpers the dispatcher calls (the focused workspace, the second workspace
    on an output, the next unused number). A lookup answers with the position
    of the workspace it found, standing for the reference Rust hands back. */
module Workspaces {
  import opened Wrappers
  import opened Text
  import opened Codec

  /** i3 reports workspace numbers as 32-bit signed integers. */
  type I32 = x: int | -0x8000_0000 <= x < 0x8000_0000

  /** Rust's `usize` on a 64-bit target. */
  type Usize = x: int | 0 <= x < 0x1_0000_0000_0000_0000

  /** The fields of i3's workspace reply that the program reads. */
  datatype Workspace = Workspace(name: string, num: I32, output: string, focused: bool)

  /** `Workspace::title`: the title decoded from the name. */
  function Title(w: Workspace): string
  {
    TitleFromName(w.name)
  }

  /** Iterator `find` from position `start` on: the first workspace at or
      after `start` that satisfies `p`. */
  function FindFrom(wps: seq<Workspace>, p: Workspace -> bool, start: nat): (r: Option<nat>)
    requires start <= |wps|
    ensures r.Some? ==> start <= r.value < |wps| && p(wps[r.value])
    ensures r.Some? ==> forall j :: start <= j < r.value ==> !p(wps[j])
    ensures r.None? <==> forall j :: start <= j < |wps| ==> !p(wps[j])
    decreases |wps| - start
  {
    if start == |wps| then None
    else if p(wps[start]) then Some(start)
    else FindFrom(wps, p, start + 1)
  }

  /** `get_wp_with_name`: the first workspace, in list order, with exactly
      this name; none exactly when no workspace has it. */
  function WithName(wps: seq<Workspace>, name: string): (r: Option<nat>)
    ensures r.Some? ==> r.value < |wps| && wps[r.value].name == name
    ensures r.Some? ==> forall j :: 0 <= j < r.value ==> wps[j].name != name
    ensures r.None? <==> forall j :: 0 <= j < |wps| ==> wps[j].name != name
  {
    FindFrom(wps, (w: Workspace) => w.name == name, 0)
  }

  /** `get_wp_with_title`: the first workspace whose decoded title is exactly
      this title; none exactly when no title matches. */
  function WithTitle(wps: seq<Workspace>, title: string): (r: Option<nat>)
    ensures r.Some? ==> r.value < |wps| && Title(wps[r.value]) == title
    ensures r.Some? ==> forall j :: 0 <= j < r.value ==> Title(wps[j]) != title
    ensures r.None? <==> forall j :: 0 <= j < |wps| ==> Title(wps[j]) != title
  {
    FindFrom(wps, (w: Workspace) => Title(w) == title, 0)
  }

  /** `number as i32`: the low 32 bits of a `usize`, read as two's
      complement; numbers that fit in an `i32` are not changed. */
  function AsI32(n: Usize): (r: I32)
    ensures (r - n) % 0x1_0000_0000 == 0
    ensures n < 0x8000_0000 ==> r == n
  {
    var low := n % 0x1_0000_0000;
    if low < 0x8000_0000 then low else low - 0x1_0000_0000
  }

  /** `get_wp_with_number`: the first workspace whose number equals the
      requested `usize` after the wrapping cast to `i32`. */
  function WithNumber(wps: seq<Workspace>, number: Usize): (r: Option<nat>)
    ensures r.Some? ==> r.value < |wps| && wps[r.value].num == AsI32(number)
    ensures r.Some? ==> forall j :: 0 <= j < r.value ==> wps[j].num != AsI32(number)
    ensures r.None? <==> forall j :: 0 <= j < |wps| ==> wps[j].num != AsI32(number)
  {
    FindFrom(wps, (w: Workspace) => w.num == AsI32(number), 0)
  }

  /** Because of the cast, numbers 2^32 apart find the same workspace, and a
      number just past `i32::MAX` finds a workspace numbered negatively. */
  lemma WithNumberWraps(wps: seq<Workspace>, number: Usize)
    requires number + 0x1_0000_0000 < 0x1_0000_0000_0000_0000
    ensures WithNumber(wps, number + 0x1_0000_0000) == WithNumber(wps, number)
    ensures AsI32(0x8000_0000) == -0x8000_0000
  {
    assert AsI32(number + 0x1_0000_0000) == AsI32(number);
  }

  /** `get_wp_with_focus`: the first workspace marked focused. The same search
      is written out inline at src/bin/fluidspaces.rs:97. */
  function Focused(wps: seq<Workspace>): (r: Option<nat>)
    ensures r.Some? ==> r.value < |wps| && wps[r.value].focused
    ensures r.Some? ==> forall j :: 0 <= j < r.value ==> !wps[j].focused
    ensures r.None? <==> forall j :: 0 <= j < |wps| ==> !wps[j].focused
  {
    FindFrom(wps, (w: Workspace) => w.focused, 0)
  }

  /** How many workspaces are on output `o`. */
  function CountOn(wps: seq<Workspace>, o: string): nat
  {
    if wps == [] then 0
    else CountOn(wps[..|wps| - 1], o) + (if wps[|wps| - 1].output == o then 1 else 0)
  }

  /** `get_second_wp_with_output`: the workspace at position 1 among those on
      output `o`, in list order. */
  function SecondOnOutput(wps: seq<Workspace>, o: string): Option<nat>
  {
    match FindFrom(wps, (w: Workspace) => w.output == o, 0)
    case None => None
    case Some(i) => FindFrom(wps, (w: Workspace) => w.output == o, i + 1)
  }

  lemma CountOnStep(wps: seq<Workspace>, o: string, k: nat)
    requires k < |wps|
    ensures CountOn(wps[..k + 1], o) == CountOn(wps[..k], o) + (if wps[k].output == o then 1 else 0)
  {
    assert wps[..k + 1][..k] == wps[..k];
  }

  /** Positions not on `o` add nothing to the count. */
  lemma {:induction false} CountOnSkips(wps: seq<Workspace>, o: string, a: nat, b: nat)
    requires a <= b <= |wps|
    requires forall j :: a <= j < b ==> wps[j].output != o
    ensures CountOn(wps[..b], o) == CountOn(wps[..a], o)
    decreases b - a
  {
    if a < b {
      CountOnStep(wps, o, b - 1);
      CountOnSkips(wps, o, a, b - 1);
    }
  }

  lemma {:induction false} CountOnGrows(wps: seq<Workspace>, o: string, a: nat, b: nat)
    requires a <= b <= |wps|
    ensures CountOn(wps[..a], o) <= CountOn(wps[..b], o)
    decreases b - a
  {
    if a < b {
      CountOnStep(wps, o, b - 1);
      CountOnGrows(wps, o, a, b - 1);
    }
  }

  /** Counting up to and including the first workspace on `o` gives one. */
  lemma CountToFirst(wps: seq<Workspace>, o: string, i: nat)
    requires i < |wps| && wps[i].output == o
    requires forall j :: 0 <= j < i ==> wps[j].output != o
    ensures CountOn(wps[..i + 1], o) == 1
  {
    CountOnSkips(wps, o, 0, i);
    CountOnStep(wps, o, i);
  }

  /** With a first workspace on `o` at `i`, the list holds at least two on
      `o` exactly when another one follows it. */
  lemma CountAfterFirst(wps: seq<Workspace>, o: string, i: nat)
    requires i < |wps| && CountOn(wps[..i + 1], o) == 1
    ensures var q := FindFrom(wps, (w: Workspace) => w.output == o, i + 1);
            (q.Some? <==> CountOn(wps, o) >= 2)
            && (q.Some? ==> CountOn(wps[..q.value], o) == 1)
  {
    assert wps[..|wps|] == wps;
    match FindFrom(wps, (w: Workspace) => w.output == o, i + 1)
    case None =>
      CountOnSkips(wps, o, i + 1, |wps|);
    case Some(j) =>
      CountOnSkips(wps, o, i + 1, j);
      CountOnStep(wps, o, j);
      CountOnGrows(wps, o, j + 1, |wps|);
  }

  /** The second workspace on an output exists exactly when the output holds
      at least two workspaces, and it is then a workspace on that output with
      exactly one other before it. */
  lemma SecondOnOutputSpec(wps: seq<Workspace>, o: string)
    ensures SecondOnOutput(wps, o).Some? <==> CountOn(wps, o) >= 2
    ensures SecondOnOutput(wps, o).Some? ==>
              SecondOnOutput(wps, o).value < |wps|
              && wps[SecondOnOutput(wps, o).value].output == o
              && CountOn(wps[..SecondOnOutput(wps, o).value], o) == 1
  {
    match FindFrom(wps, (w: Workspace) => w.output == o, 0)
    case None =>
      assert wps[..|wps|] == wps;
      CountOnSkips(wps, o, 0, |wps|);
    case Some(i) =>
      CountToFirst(wps, o, i);
      CountAfterFirst(wps, o, i);
  }

  /** Each workspace is numbered by its position, counting from 1: the state
      a fixup leaves behind. */
  predicate Normalized(wps: seq<Workspace>)
  {
    forall i :: 0 <= i < |wps| ==> wps[i].num == i + 1
  }

  /** `next_unused_number`: one past the length of the list. On a normalized
      list no workspace carries it. */
  function NextUnusedNumber(wps: seq<Workspace>): (r: nat)
    ensures r > 0
    ensures Normalized(wps) ==> forall i :: 0 <= i < |wps| ==> wps[i].num != r
  {
    |wps| + 1
  }

  /** On a list that is not normalized it may be taken. */
  lemma NextUnusedMayBeTaken()
    ensures var wps := [Workspace("2:a", 2, "o", true)];
            wps[0].num == NextUnusedNumber(wps)
  {
  }

  /** One line of the picker: the sort key and the title shown. */
  datatype Choice = Choice(key: Usize, title: string)

  /** `num as usize`: the same value modulo 2^64, so a negative number wraps
      into the top half of the range, above every non-negative one. */
  function UsizeKey(num: I32): (r: Usize)
    ensures (r - num) % 0x1_0000_0000_0000_0000 == 0
    ensures r >= 0x8000_0000_0000_0000 <==> num < 0
  {
    if num >= 0 then num else 0x1_0000_0000_0000_0000 + num
  }

  predicate SortedByKey(cs: seq<Choice>)
  {
    forall i, j :: 0 <= i < j < |cs| ==> cs[i].key <= cs[j].key
  }

  /** Putting a choice in front of a sorted list whose keys are all at least
      its own keeps the list sorted. */
  lemma SortedCons(x: Choice, t: seq<Choice>)
    requires SortedByKey(t)
    requires forall k :: 0 <= k < |t| ==> x.key <= t[k].key
    ensures SortedByKey([x] + t)
  {
    var r := [x] + t;
    forall i, j | 0 <= i < j < |r|
      ensures r[i].key <= r[j].key
    {
      assert r[j] == t[j - 1];
      if i > 0 {
        assert r[i] == t[i - 1];
      }
    }
  }

  /** Insertion of one choice before the first choice whose key is not
      smaller. */
  function Insert(c: Choice, cs: seq<Choice>): seq<Choice>
  {
    if cs == [] then [c]
    else if c.key <= cs[0].key then [c] + cs
    else [cs[0]] + Insert(c, cs[1..])
  }

  /** Inserting into a sorted list keeps it sorted, adds exactly the new
      choice, and leaves at the front either the new choice or the old
      first one. */
  lemma {:induction false} InsertSpec(c: Choice, cs: seq<Choice>)
    requires SortedByKey(cs)
    ensures |Insert(c, cs)| == |cs| + 1
    ensures SortedByKey(Insert(c, cs))
    ensures multiset(Insert(c, cs)) == multiset(cs) + multiset{c}
    ensures Insert(c, cs)[0] == c || (cs != [] && Insert(c, cs)[0] == cs[0])
  {
    if cs == [] {
    } else if c.key <= cs[0].key {
      SortedCons(c, cs);
    } else {
      var t := Insert(c, cs[1..]);
      InsertSpec(c, cs[1..]);
      assert cs == [cs[0]] + cs[1..];
      assert t[0].key >= cs[0].key;
      SortedCons(cs[0], t);
    }
  }

  /** `sort_unstable_by` on the key, as an insertion sort. */
  function SortByKey(cs: seq<Choice>): seq<Choice>
  {
    if cs == [] then [] else Insert(cs[0], SortByKey(cs[1..]))
  }

  /** The sort returns a sorted permutation of its input. */
  lemma {:induction false} SortByKeySpec(cs: seq<Choice>)
    ensures SortedByKey(SortByKey(cs))
    ensures multiset(SortByKey(cs)) == multiset(cs)
  {
    if cs != [] {
      SortByKeySpec(cs[1..]);
      InsertSpec(cs[0], SortByKey(cs[1..]));
      assert cs == [cs[0]] + cs[1..];
    }
  }

  function ChoiceOf(w: Workspace): Choice
  {
    Choice(UsizeKey(w.num), Title(w))
  }

  /** The (key, title) pairs of the list, in list order. */
  function ChoicesOf(wps: seq<Workspace>): (r: seq<Choice>)
    ensures |r| == |wps|
    ensures forall i :: 0 <= i < |wps| ==> r[i] == ChoiceOf(wps[i])
  {
    seq(|wps|, i requires 0 <= i < |wps| => ChoiceOf(wps[i]))
  }

  function TitlesOf(cs: seq<Choice>): (r: seq<string>)
    ensures |r| == |cs|
    ensures forall i :: 0 <= i < |cs| ==> r[i] == cs[i].title
  {
    seq(|cs|, i requires 0 <= i < |cs| => cs[i].title)
  }

  /** The lines offered to the picker, in order: a workspace with a negative
      number comes after every workspace with a non-negative one. */
  function SortedChoices(wps: seq<Workspace>): (r: seq<Choice>)
    ensures forall i, j :: 0 <= i < j < |r| && r[i].key >= 0x8000_0000_0000_0000
              ==> r[j].key >= 0x8000_0000_0000_0000
  {
    SortByKeySpec(ChoicesOf(wps));
    SortByKey(ChoicesOf(wps))
  }

  /** `choices_str`: the titles ordered by `num as usize`, one per line. */
  function ChoicesStr(wps: seq<Workspace>): string
  {
    Join(TitlesOf(SortedChoices(wps)), "\n")
  }

  /** The picker lists every workspace exactly once, by title, in
      non-decreasing order of `num as usize`; when no title holds a line
      break, its lines are exactly those titles. */
  lemma ChoicesStrSpec(wps: seq<Workspace>)
    ensures multiset(SortedChoices(wps)) == multiset(ChoicesOf(wps))
    ensures SortedByKey(SortedChoices(wps))
    ensures |wps| > 0 && (forall i :: 0 <= i < |wps| ==> '\n' !in Title(wps[i])) ==>
              SplitOn(ChoicesStr(wps), '\n') == TitlesOf(SortedChoices(wps))
  {
    var r := SortedChoices(wps);
    SortByKeySpec(ChoicesOf(wps));
    if |wps| > 0 && (forall i :: 0 <= i < |wps| ==> '\n' !in Title(wps[i])) {
      var ts := TitlesOf(r);
      forall k | 0 <= k < |ts| ensures '\n' !in ts[k] {
        assert r[k] in multiset(ChoicesOf(wps));
        var i :| 0 <= i < |wps| && ChoicesOf(wps)[i] == r[k];
      }
      assert |r| == |wps| by {
        assert |multiset(r)| == |multiset(ChoicesOf(wps))|;
      }
      JoinSplitRoundTrip(ts, '\n');
    }
  }
}

=== FILE: wrappers.dfy ===
/** The `Option` and `Result` datatypes the model shares: `Option` for
    the lookups that may find nothing, `Result` for parsers and requests that
    may fail with a reason. */
module Wrappers {

  datatype Option<+T> = None | Some(value: T)

  datatype Result<+R, +E> = Success(value: R) | Failure(error: E)
}
